=== FILE: README.md ===
# Music graph recommender: layout, draw pass, neighbour selection, edge building

A Dafny model of the core of a music recommender that shows a song's nearest
neighbours as a radial graph. It covers three pieces:

- **Radial layout and draw pass** (`frontend/components/graph-visualization.tsx`).
  The centre node is the first node of group `query`, or the first node if there
  is none. The neighbours are the far ends of the edges that touch the centre.
  They are sorted by descending weight with a stable sort and placed on a ring.
  Each ring radius is `ringRadius * (1 - 0.35 * clamp(weight, 0, 1))`. Every node
  not placed yet goes on an outer ring at `1.05 * ringRadius`. The draw pass
  produces this sequence of operations:
  1. a background rectangle;
  2. one line per edge whose two endpoints are positioned;
  3. four operations per positioned node: glow, disc, border and label.

  A label longer than 28 units is cut to its first 25 and followed by `...`.
  JavaScript counts UTF-16 code units; the model counts the elements of a
  Dafny string (see "Left out"). The
  component shows a spinner while loading, a placeholder for an empty graph, and
  a canvas otherwise. Modules: `RadialLayout`, `NeighbourSort`,
  `LayoutProperties`, `Renderer`, `RenderProperties`.
- **Recommendation endpoints** (`backend/app/main.py`). `/recommend` first checks
  the index range. It then takes `argsort()[-(k+1):][::-1]`, drops the query's
  own index and keeps the first `k`. Python's clipping of negative and oversized
  slice bounds is modelled exactly. `/graph` builds a star payload: the query
  node, one `recommended` node per selected song, and one weighted edge from the
  query to each of them. Module: `Recommend`.
- **Edge building** (`ml/build_graph.py`). Every pair `i < j` whose similarity is
  at least 0.85 gives `[i, j]` followed at once by `[j, i]`. Module: `BuildGraph`.

The module `Pipeline` connects the backend to the frontend. For a `/graph`
payload it proves four things:
- the query song is placed on the surface centre;
- every recommended song sits on the neighbour ring, between 65% and 100% of its radius;
- every payload edge is drawn;
- the frame has `1 + |edges| + 4 * |nodes|` operations.

Modelling choices:
- **Positions.** A position is `Centre` or `Polar(turn, radius)`, where the angle
  is a fraction of a full turn. The renderer turns positions into points through
  a `Trig` parameter, which stands for `Math.cos` and `Math.sin`. So the
  placement facts are exact, and trigonometry is not modelled.
- **Ids.** Node ids are strings. The backend's integer ids become their decimal
  text (`DecimalId`), as `String(n)` does in the frontend. That conversion is
  proved injective, so it never merges two nodes.
- **Map writes.** `nodePositions.set` is a left-to-right sequence of map writes
  (`Assign`), so a later write to the same id wins, as in the source.
- **Naming.** The payload field `label` is called `caption` in the model,
  because `label` is a Dafny keyword.

Three behaviours of the code worth noting:
- A neighbour id that is not a node still gets a ring position. So an edge from
  the centre to a missing node is drawn (`RenderProperties.DanglingNeighbourDrawn`).
- A zero-size surface is laid out with ring radius 0 and drawn. It is not a no-op.
- The outer-ring angle divides by the total node count, not by the number of
  outer nodes.

## Model

| member | source | states |
|---|---|---|
| RadialLayout.FindQuery | frontend/components/graph-visualization.tsx:65 | the first index whose node is in group `query`, or none exactly when no node is |
| RadialLayout.CentreIndex | frontend/components/graph-visualization.tsx:65-66 | the centre is the first query node, or node 0 when there is no query node |
| RadialLayout.Neighbours | frontend/components/graph-visualization.tsx:69-76 | entry `i` is the far end, with its weight or 0 when the weight is missing, of the `i`-th edge touching the centre, in edge order; duplicates and dangling ends are kept |
| RadialLayout.Clamp01 | frontend/components/graph-visualization.tsx:94 | the weight clamped to [0, 1]: unchanged inside, 0 below, 1 above |
| RadialLayout.RingRadius | frontend/components/graph-visualization.tsx:85 | the ring radius is 35% of the shorter side: at most 35% of each side, equal to 35% of whichever is not longer, and not negative for non-negative sides |
| RadialLayout.NeighbourRadius | frontend/components/graph-visualization.tsx:93-95 | a neighbour's radius lies between 65% and 100% of the ring radius; its end values and strict decrease are stated by `RadiusEnds` and `RadiusDecreasing` |
| RadialLayout.OuterRadius | frontend/components/graph-visualization.tsx:106 | the outer ring lies strictly outside a positive ring |
| RadialLayout.Slots | frontend/components/graph-visualization.tsx:90 | the angle divisor is the neighbour count, or 1 when there are none |
| RadialLayout.NeighbourWrites | frontend/components/graph-visualization.tsx:90-99 | one write per ranked neighbour; `LayoutProperties.NeighbourWriteKeys` states that they write exactly the neighbour ids |
| RadialLayout.OuterWrites | frontend/components/graph-visualization.tsx:104-110 | one write per unplaced node; `LayoutProperties.OuterWriteKeys` states that they write exactly those nodes' ids |
| RadialLayout.InnerPositions | frontend/components/graph-visualization.tsx:81-99 | the centre, then the neighbour loop; `LayoutProperties.InnerKeys` states that the positioned ids are the centre and the neighbour ids |
| RadialLayout.Unplaced | frontend/components/graph-visualization.tsx:101-103 | the nodes without a position after the neighbour loop; `LayoutProperties.UnplacedNodes` states that they are, in input order, the nodes that are neither the centre nor a neighbour |
| RadialLayout.Assign | frontend/components/graph-visualization.tsx:82-109 | after a sequence of `set` calls the map's keys are the old keys plus every written key |
| RadialLayout.AssignLastWrite | frontend/components/graph-visualization.tsx:91-110 | a write that no later write to the same id overrides decides that id's value |
| RadialLayout.AssignWritten | frontend/components/graph-visualization.tsx:91-110 | a written id holds the value of its last write |
| RadialLayout.AssignUntouched | frontend/components/graph-visualization.tsx:91-110 | an id no write touches keeps its earlier value |
| RadialLayout.Layout | frontend/components/graph-visualization.tsx:62-110 | the centre and every node receive a position |
| NeighbourSort.SortDesc | frontend/components/graph-visualization.tsx:88 | the neighbours sorted: weights never increase and the result is a permutation of the input |
| NeighbourSort.InsertClass | frontend/components/graph-visualization.tsx:88 | one insertion puts the element at the front of its weight class and changes no other class |
| NeighbourSort.SortDescStable | frontend/components/graph-visualization.tsx:88 | the sort is stable: each weight class keeps its input order |
| NeighbourSort.StableSortUnique | frontend/components/graph-visualization.tsx:88 | any non-increasing sequence that keeps each weight class in input order is the sort's result |
| LayoutProperties.RankedIds | frontend/components/graph-visualization.tsx:88 | sorting keeps the set of neighbour ids |
| LayoutProperties.NeighbourWriteKeys | frontend/components/graph-visualization.tsx:91-99 | the neighbour loop writes exactly the neighbour ids |
| LayoutProperties.OuterWriteKeys | frontend/components/graph-visualization.tsx:104-110 | the outer loop writes exactly the ids of the unplaced nodes |
| LayoutProperties.InnerKeys | frontend/components/graph-visualization.tsx:81-99 | before the outer loop the positioned ids are the centre and the neighbour ids |
| LayoutProperties.UnplacedNodes | frontend/components/graph-visualization.tsx:101-103 | the nodes that reach the outer loop are, in input order, those that are neither the centre nor a neighbour |
| LayoutProperties.LayoutDomain | frontend/components/graph-visualization.tsx:62-110 | exactly the centre, the neighbour ids and the node ids are positioned |
| LayoutProperties.CentreAmongNeighbours | frontend/components/graph-visualization.tsx:69-76 | the centre is its own neighbour exactly when a self-loop touches it |
| LayoutProperties.InnerKept | frontend/components/graph-visualization.tsx:101-110 | the outer loop never moves an id the first two steps placed |
| LayoutProperties.LayoutCentre | frontend/components/graph-visualization.tsx:81-99 | the centre stays on the surface centre if and only if no self-loop touches it |
| LayoutProperties.LayoutNeighbourSlot | frontend/components/graph-visualization.tsx:90-98 | ranked neighbour `i`, when it is the last entry with its id, sits at turn `i / n`, at the radius its weight selects |
| LayoutProperties.LayoutNeighbourRadius | frontend/components/graph-visualization.tsx:84-98 | every neighbour id is on the ring, between 65% and 100% of the ring radius |
| LayoutProperties.LayoutOuterSlot | frontend/components/graph-visualization.tsx:104-109 | unplaced node `k`, when it is the last unplaced node with its id, sits at turn `(k + neighbour count) / node count` on the outer ring |
| LayoutProperties.LayoutOuterRadius | frontend/components/graph-visualization.tsx:101-110 | a node that is neither the centre nor a neighbour is on the outer ring, strictly outside every neighbour |
| LayoutProperties.LayoutRadiusFollowsRank | frontend/components/graph-visualization.tsx:87-98 | a stronger neighbour is never further from the centre than a weaker one, when each is the last ranked entry with its id |
| LayoutProperties.RadiusAntitone | frontend/components/graph-visualization.tsx:93-95 | a heavier weight never gives a larger radius |
| LayoutProperties.RadiusEnds | frontend/components/graph-visualization.tsx:94-95 | a weight of 0 or less keeps the full ring radius, and a weight of 1 or more gives exactly 65% of it |
| LayoutProperties.RadiusDecreasing | frontend/components/graph-visualization.tsx:93-95 | for weights in [0, 1] and a positive ring, a strictly heavier weight gives a strictly smaller radius, so stronger neighbours sit visibly closer |
| LayoutProperties.NeighboursOfOutgoing | frontend/components/graph-visualization.tsx:69-76 | when every edge leaves the centre, the neighbours are the edges' targets with their weights, in edge order |
| Renderer.ForegroundColour | frontend/components/graph-visualization.tsx:157-162 | borders and labels use the other theme's background colour, never the current one |
| Renderer.ToPoint | frontend/components/graph-visualization.tsx:78-82 | the centre placement, and any zero radius, map to the middle of the surface |
| Renderer.EdgeOps | frontend/components/graph-visualization.tsx:117-129 | one line per edge with both endpoints positioned, all in the edge colour and width, and every such edge's line is present |
| Renderer.DisplayLabel | frontend/components/graph-visualization.tsx:163 | the label is kept if and only if it has at most 28 characters, else cut to its first 25 plus `...` |
| Renderer.GlyphRadius | frontend/components/graph-visualization.tsx:138-139 | the radius is 8 if and only if the node is a query node, else 6 |
| Renderer.GlyphOps | frontend/components/graph-visualization.tsx:141-164 | glow at 3 times the radius, disc, border of width 1 and label, all at the node's point; the glow and disc colours depend on whether the node is the query, with the label 6 pixels right of the disc |
| Renderer.NodeOps | frontend/components/graph-visualization.tsx:134-136 | four operations per positioned node and none for a node without a position |
| Renderer.Render | frontend/components/graph-visualization.tsx:112-165 | background first, then exactly the edge lines, each drawable edge's line among them, then only glyph operations |
| Renderer.Frame | frontend/components/graph-visualization.tsx:62-165 | layout, then the draw pass; `RenderProperties.FrameDrawsEveryNode` states that every node is drawn |
| Renderer.ChooseView | frontend/components/graph-visualization.tsx:168-201 | spinner if and only if loading, placeholder if and only if idle and empty, canvas otherwise |
| Renderer.Effect | frontend/components/graph-visualization.tsx:35-42 | the effect runs only on a data change, and it draws if and only if the canvas is shown |
| RenderProperties.EdgeOpsConcat | frontend/components/graph-visualization.tsx:120-129 | the lines of concatenated edge lists are the concatenated lines |
| RenderProperties.DanglingEdgeSkipped | frontend/components/graph-visualization.tsx:121-123 | an edge with an unpositioned endpoint contributes nothing |
| RenderProperties.NodeOpsConcat | frontend/components/graph-visualization.tsx:134-136 | the glyphs of concatenated node lists are the concatenated glyphs |
| RenderProperties.NodeGlyphDrawn | frontend/components/graph-visualization.tsx:134-165 | a positioned node's four operations appear together, at its point, in the node pass |
| RenderProperties.FrameDrawsEveryNode | frontend/components/graph-visualization.tsx:62-165 | after layout every node is drawn: the frame has 1 + drawable edges + 4 x nodes operations |
| RenderProperties.DanglingNeighbourDrawn | frontend/components/graph-visualization.tsx:69-129 | an edge from the centre is always drawn, even when its target is not a node |
| RenderProperties.RenderDrawsGlyph | frontend/components/graph-visualization.tsx:131-165 | every positioned node's glyph appears in the frame at its point |
| RenderProperties.CentreGlyphAtMiddle | frontend/components/graph-visualization.tsx:81-153 | without a self-loop on it, the centre node's glyph is drawn on the surface centre |
| RenderProperties.FallbackCentreSmall | frontend/components/graph-visualization.tsx:65-139 | with no query node and no self-loop on node 0, node 0 is drawn on the surface centre with radius 6 |
| GraphTypes.DecimalIdInjective | frontend/components/graph-visualization.tsx:82 | different integer ids have different string forms |
| Recommend.SliceBound | backend/app/main.py:35-36 | Python's slice bound: a negative bound counts from the end, and the result is clipped to the length |
| Recommend.TopNeighbours | backend/app/main.py:35-36 | the selection has valid, distinct indices, never the query, in non-increasing similarity, `min(k, N - 1)` of them, and no other song but the query is more similar than a selected one (`Maximal`) |
| Recommend.TopIsMaximal | backend/app/main.py:35-36 | the cut is a top-`k`: every song left out, other than the query, is at most as similar as every selected song |
| Recommend.BelowTail | backend/app/main.py:35 | an index outside the last `k + 1` entries of the argsort is no more similar than any of them |
| Recommend.CountTop | backend/app/main.py:35-36 | with a valid query and `k >= 0` exactly `min(k, N - 1)` indices survive the filter and the cut |
| Recommend.FilterFacts | backend/app/main.py:36 | dropping the query keeps the indices in range and in descending order |
| Recommend.ReverseFacts | backend/app/main.py:35 | reversing the ascending tail gives a descending, duplicate-free ranking |
| Recommend.Recommend | backend/app/main.py:25-40 | an out-of-range index, and only that, gives the `Invalid song_index` error record; otherwise the tracks `df.iloc[top_idx]` of the top-`k` selection, in ranking order, `min(k, N - 1)` of them |
| Recommend.GraphAsWritten | backend/app/main.py:42-78 | `/graph` as written: it fails only outside `-N .. N - 1`, and for `0 <= q < N` it returns the payload |
| Recommend.NegativeIndexRecommendsItself | backend/app/main.py:44-50 | index `-2` on two songs recommends the query song to itself |
| Recommend.Graph | backend/app/main.py:42-78 | `/graph` with the index check: the error for an out-of-range index, and otherwise the payload, in which no recommended node carries the query's id |
| Recommend.GraphPayload | backend/app/main.py:52-78 | the query node first; node `i + 1` is selected song `top[i]` with its id and name, and edge `i` runs from the query to it with weight `sims[top[i]]`; non-increasing weights, distinct ids |
| Recommend.PayloadSelection | backend/app/main.py:52-73 | the payload built for a selection carries it: node `i + 1` is song `top[i]` with its name, and edge `i` runs from the query to it weighted `sims[top[i]]` |
| Recommend.PayloadLinks | backend/app/main.py:63-73 | edge `i` joins the query node to node `i + 1` |
| Recommend.EdgeWeightsDescending | backend/app/main.py:69-73 | every edge carries a weight and the weights never increase |
| Recommend.PayloadIdsDistinct | backend/app/main.py:56-68 | the query id and the recommended ids are pairwise different |
| Recommend.RecommendMatchesGraph | backend/app/main.py:35-68 | `/recommend` and `/graph` select the same songs in the same order: track `i` is `df[top[i]]` and node `i + 1` has id `top[i]` and that track's name |
| BuildGraph.BuildEdges | ml/build_graph.py:21-31 | the loop builds the reference list: twice as many edges as accepted pairs, and `[a, b]` is present if and only if `a` and `b` are linked |
| BuildGraph.ScanRow | ml/build_graph.py:28-31 | the inner loop over `j` appends, after the earlier rows' edges, `[i, j]` and `[j, i]` for exactly the pairs row `i` accepts, in order |
| BuildGraph.RowMembers | ml/build_graph.py:28-31 | row `i` accepts `(i, j)` if and only if `i < j < N` and `sim[i][j] >= 0.85` |
| BuildGraph.PairsMembers | ml/build_graph.py:27-31 | the first `i` rows accept exactly the upper-triangle pairs with row below `i` that reach the threshold |
| BuildGraph.DoubledMembers | ml/build_graph.py:30-31 | an edge is present if and only if it or its reverse is an accepted pair |
| BuildGraph.EdgesMembers | ml/build_graph.py:23-31 | `[a, b]` is an edge if and only if `a != b`, both are rows, and the upper-triangle similarity is at least 0.85 |
| BuildGraph.EdgesSymmetric | ml/build_graph.py:30-31 | `[a, b]` is present if and only if `[b, a]` is |
| BuildGraph.EdgesWellFormed | ml/build_graph.py:25-28 | no self-loops, and every endpoint is a row index |
| BuildGraph.RowAscending | ml/build_graph.py:28-29 | within a row the accepted `j` strictly increase |
| BuildGraph.PairsAscending | ml/build_graph.py:27-29 | forward pairs appear in strictly increasing `(i, j)` order |
| BuildGraph.EdgesLayout | ml/build_graph.py:27-31 | the list is the forward pairs `i < j` in lexicographic order, each followed by its reverse |
| BuildGraph.UpperTriangleOnly | ml/build_graph.py:27-29 | matrices that agree above the diagonal accept the same pairs |
| BuildGraph.RowsAgree | ml/build_graph.py:28-29 | a row's accepted pairs depend only on its entries above the diagonal |
| BuildGraph.EdgesUpperTriangleOnly | ml/build_graph.py:27-29 | the edge list depends only on the entries above the diagonal |
| Pipeline.PayloadCentreId | backend/app/main.py:56-60 | the frontend picks the payload's query node as the centre |
| Pipeline.PayloadQueryAtCentre | frontend/components/graph-visualization.tsx:65-82 | the query song of a `/graph` payload is placed on the surface centre |
| Pipeline.PayloadNeighbours | frontend/components/graph-visualization.tsx:69-76 | every recommended song of the payload is a neighbour of the centre |
| Pipeline.PayloadRecommendedOnRing | frontend/components/graph-visualization.tsx:84-98 | every recommended song sits on the neighbour ring, between 65% and 100% of its radius |
| Pipeline.PayloadFrameSize | frontend/components/graph-visualization.tsx:117-165 | every payload edge is drawn: the frame has `1 + edges + 4 x nodes` operations |

## Left out

- Canvas sizing (graph-visualization.tsx lines 44-60) is not modelled. This
  covers the device pixel ratio, `Math.floor`/`Math.max(1, …)` on the backing
  store, and `setTransform`/`scale`. The layout takes the logical width and
  height as inputs.
- `Math.cos`/`Math.sin` are a `Trig` parameter. Floating-point rounding and
  NaN are not modelled: weights and coordinates are exact reals.
- Drawing details are not modelled: the radial gradient's outer stop, `font`,
  `textBaseline`, and `beginPath`/`stroke` bookkeeping. A glow carries its
  inner colour only.
- React, the DOM and the `dark` class lookup are not modelled. The theme is a
  parameter, and re-running the effect is a `dataChanged` flag. Resizing is not
  handled by the source either.
- `String()` of non-string, non-integer ids is not modelled. Ids are strings,
  and integer ids from the backend are their decimal text.
- `NeighbourSort.SortDesc`: the JavaScript comparator `(b.weight ?? 0) - (a.weight ?? 0)`
  is modelled as a stable sort by descending weight. A NaN weight, which would
  make the comparator inconsistent, is not modelled.
- The cosine similarities and `argsort` are inputs to `Recommend`. The ranking
  is any ascending permutation (`IsArgsort`), because numpy's default sort is
  not stable. So ties may come out in any order.
- `Recommend.TopNeighbours`: the count is stated only for a valid query and
  `k >= 0`. For a negative `k` the slicing is modelled exactly, but no count
  is stated.
- `Recommend.Recommend`: the count is stated only for `k >= 0`, for the same reason.
- `Recommend.Recommend`, `Recommend.Graph`: the query parameter's default
  `k = 5` (main.py lines 26 and 43) is not modelled. `k` is always passed
  explicitly, since the default is filled in by the web framework.
- `Renderer.DisplayLabel`: JavaScript's `length` and `slice` count UTF-16 code
  units, while a Dafny string is a sequence of Unicode scalar values. So for a
  label with characters outside the Basic Multilingual Plane the model cuts at
  a different place. The two agree on labels made of BMP characters only.
- `Recommend.GraphPayload` requires `0 <= q < N`. The unguarded handler is
  `Recommend.GraphAsWritten`. An out-of-range request raises `IndexError` in
  the source, modelled as a failure value.
- `/songs`, CORS, the CSV and `.npy` loading, and the JSON record format are not
  modelled. A track is its name and artist.
- In `ml/build_graph.py` the model covers only lines 21-31. Loading, scaling,
  `cosine_similarity`, the `np.array(edges).T` reshape, `np.save` and the
  printed summary (lines 1-20 and 33-42) are left out. With no accepted pair,
  `edge_index.shape[1]` on line 41 would fail; the model stops before that line.
- The other frontend files are not part of this model: the page, the header,
  the song selector and the recommendation list.

## Findings

| source | as written | input that shows it | evidently intended | confidence | as-written member | corrected member |
|---|---|---|---|---|---|---|
| backend/app/main.py:42-50 | `/graph` has no index check. A negative index reads row `q + N`, but the selection still filters on the raw `q`, so that row is never excluded. | two songs, similarities `[1.0, 0.5]`, argsort `[1, 0]`, `song_index = -2`, `k = 1`: the only recommended node is song 0, the query song itself | reject an index outside `0 .. N - 1` with the error record, as `/recommend` does (main.py:27-28) | high, not executed | Recommend.GraphAsWritten, Recommend.NegativeIndexRecommendsItself | Recommend.Graph |

=== FILE: build_graph.dfy ===
/** The offline edge construction (ml/build_graph.py, lines 21-31): every
    pair of distinct songs whose similarity reaches the threshold becomes two
    directed edges, one each way. The similarity matrix is an input; how
    it is computed (scaling, cosine similarity) is not modelled. */
module BuildGraph {

  const Threshold: real := 0.85

  /** One directed edge `[source, target]`, by row index. */
  type Pair = (int, int)

  function Swap(p: Pair): Pair {
    (p.1, p.0)
  }

  predicate IsSquare(sim: seq<seq<real>>) {
    forall i :: 0 <= i < |sim| ==> |sim[i]| == |sim|
  }

  /** The row and the column of a pair's upper-triangle entry (integer
      indices; the layout's `Min`/`Max` work on real lengths). */
  function Min(a: int, b: int): int { if a <= b then a else b }
  function Max(a: int, b: int): int { if a <= b then b else a }

  /** Songs `a` and `b` are different rows whose similarity, read from the
      upper triangle, is at least the threshold. */
  predicate Linked(sim: seq<seq<real>>, a: int, b: int)
    requires IsSquare(sim)
  {
    0 <= a < |sim| && 0 <= b < |sim| && a != b && sim[Min(a, b)][Max(a, b)] >= Threshold
  }

  /** `p` comes strictly before `q` in `(i, j)` order. */
  predicate LexLess(p: Pair, q: Pair) {
    p.0 < q.0 || (p.0 == q.0 && p.1 < q.1)
  }

  predicate StrictlyAscending(ps: seq<Pair>) {
    forall s, t :: 0 <= s < t < |ps| ==> LexLess(ps[s], ps[t])
  }

  // ------------------------------------------------------------ reference

  /** The forward pairs `(i, j)` the inner loop accepts for `j` in
      `i + 1 .. limit - 1`, in loop order. */
  function RowPairs(sim: seq<seq<real>>, i: nat, limit: nat): seq<Pair>
    requires IsSquare(sim) && i < |sim| && limit <= |sim|
    decreases limit
  {
    if limit <= i + 1 then []
    else RowPairs(sim, i, limit - 1) + (if sim[i][limit - 1] >= Threshold then [(i, limit - 1)] else [])
  }

  /** The forward pairs accepted by the first `i` turns of the outer loop. */
  function PairsBefore(sim: seq<seq<real>>, i: nat): seq<Pair>
    requires IsSquare(sim) && i <= |sim|
  {
    if i == 0 then [] else PairsBefore(sim, i - 1) + RowPairs(sim, i - 1, |sim|)
  }

  /** Every pair of row `i` below `limit` has `i` first and a column
      between `i` and `limit`. */
  lemma {:induction false} RowBounds(sim: seq<seq<real>>, i: nat, limit: nat)
    requires IsSquare(sim) && i < |sim| && limit <= |sim|
    ensures forall p :: p in RowPairs(sim, i, limit) ==> p.0 == i && i < p.1 < limit
    decreases limit
  {
    forall p | p in RowPairs(sim, i, limit) ensures p.0 == i && i < p.1 < limit {
      RowMembers(sim, i, limit, p);
    }
  }

  /** Every pair of the first `i` rows has a row below `i`. */
  lemma {:induction false} PairsBound(sim: seq<seq<real>>, i: nat)
    requires IsSquare(sim) && i <= |sim|
    ensures forall p :: p in PairsBefore(sim, i) ==> 0 <= p.0 < i
  {
    forall p | p in PairsBefore(sim, i) ensures 0 <= p.0 < i {
      PairsMembers(sim, i, p);
    }
  }

  /** The inner loop accepts `(i, j)` exactly for the `j` above `i` whose
      similarity reaches the threshold. */
  lemma {:induction false} RowMembers(sim: seq<seq<real>>, i: nat, limit: nat, p: Pair)
    requires IsSquare(sim) && i < |sim| && limit <= |sim|
    ensures p in RowPairs(sim, i, limit) <==> p.0 == i && i < p.1 < limit && sim[i][p.1] >= Threshold
    decreases limit
  {
    if limit > i + 1 {
      RowMembers(sim, i, limit - 1, p);
    }
  }

  /** `p` is a forward pair whose similarity reaches the threshold. */
  predicate Forward(sim: seq<seq<real>>, p: Pair)
    requires IsSquare(sim)
  {
    0 <= p.0 < p.1 < |sim| && sim[p.0][p.1] >= Threshold
  }

  /** The first `i` outer turns accept exactly the upper-triangle pairs with
      a row below `i` whose similarity reaches the threshold. */
  lemma {:induction false} PairsMembers(sim: seq<seq<real>>, i: nat, p: Pair)
    requires IsSquare(sim) && i <= |sim|
    ensures InPairsExactly(sim, i, p)
  {
    if i > 0 {
      PairsMembers(sim, i - 1, p);
      PairsStepMembers(sim, i, p);
    }
  }

  /** `p` is among the pairs of the first `i` rows exactly when its row is
      below `i` and it is an accepted forward pair. */
  predicate InPairsExactly(sim: seq<seq<real>>, i: nat, p: Pair)
    requires IsSquare(sim) && i <= |sim|
  {
    p in PairsBefore(sim, i) <==> p.0 < i && Forward(sim, p)
  }

  /** Row `i - 1` adds exactly the accepted pairs whose row is `i - 1`. */
  lemma PairsStepMembers(sim: seq<seq<real>>, i: nat, p: Pair)
    requires IsSquare(sim) && 0 < i <= |sim|
    requires InPairsExactly(sim, i - 1, p)
    ensures InPairsExactly(sim, i, p)
  {
    RowMembers(sim, i - 1, |sim|, p);
    var before, row := PairsBefore(sim, i - 1), RowPairs(sim, i - 1, |sim|);
    ConcatMembers(sim, i, p, before, row);
  }

  /** Membership in the concatenation of the earlier rows and row `i - 1`. */
  lemma ConcatMembers(sim: seq<seq<real>>, i: nat, p: Pair, before: seq<Pair>, row: seq<Pair>)
    requires IsSquare(sim) && 0 < i <= |sim|
    requires p in before <==> p.0 < i - 1 && Forward(sim, p)
    requires p in row <==> p.0 == i - 1 && i - 1 < p.1 < |sim| && sim[i - 1][p.1] >= Threshold
    ensures p in before + row <==> p.0 < i && Forward(sim, p)
  {
  }

  /** Every forward pair of the matrix, in loop order. */
  function Pairs(sim: seq<seq<real>>): seq<Pair>
    requires IsSquare(sim)
  {
    PairsBefore(sim, |sim|)
  }

  /** Each pair followed at once by its reverse. */
  function Doubled(ps: seq<Pair>): (es: seq<Pair>)
    ensures |es| == 2 * |ps|
  {
    seq(2 * |ps|, k requires 0 <= k < 2 * |ps| => if k % 2 == 0 then ps[k / 2] else Swap(ps[k / 2]))
  }

  /** Pair `k` sits at position `2k`, its reverse right after it. */
  lemma DoubledIndex(ps: seq<Pair>)
    ensures forall k :: 0 <= k < |ps| ==>
              Doubled(ps)[2 * k] == ps[k] && Doubled(ps)[2 * k + 1] == Swap(ps[k])
  {
    forall k | 0 <= k < |ps|
      ensures Doubled(ps)[2 * k] == ps[k] && Doubled(ps)[2 * k + 1] == Swap(ps[k])
    {
      assert (2 * k) / 2 == k && (2 * k) % 2 == 0;
      assert (2 * k + 1) / 2 == k && (2 * k + 1) % 2 == 1;
    }
  }

  /** An edge is in the doubled list exactly when it or its reverse is one
      of the pairs. */
  lemma DoubledMembers(ps: seq<Pair>, e: Pair)
    ensures e in Doubled(ps) <==> e in ps || Swap(e) in ps
  {
    var es := Doubled(ps);
    DoubledIndex(ps);
    if e in es {
      var m :| 0 <= m < |es| && es[m] == e;
      if m % 2 == 0 {
        assert e == ps[m / 2];
      } else {
        assert Swap(e) == ps[m / 2];
      }
    }
    if e in ps {
      var k :| 0 <= k < |ps| && ps[k] == e;
      assert es[2 * k] == e;
    }
    if Swap(e) in ps {
      var k :| 0 <= k < |ps| && ps[k] == Swap(e);
      assert es[2 * k + 1] == e;
    }
  }

  /** The `edges` list the script builds. */
  function Edges(sim: seq<seq<real>>): seq<Pair>
    requires IsSquare(sim)
  {
    Doubled(Pairs(sim))
  }

  // ----------------------------------------------------------------- loop

  /** The double loop itself. */
  method BuildEdges(sim: seq<seq<real>>) returns (edges: seq<Pair>)
    requires IsSquare(sim)
    ensures edges == Edges(sim)
    ensures |edges| == 2 * |Pairs(sim)|
    ensures forall a, b :: (a, b) in edges <==> Linked(sim, a, b)
  {
    var n := |sim|;
    edges := [];
    ghost var accepted: seq<Pair> := [];
    var i := 0;
    while i < n
      invariant 0 <= i <= n
      invariant accepted == PairsBefore(sim, i)
      invariant edges == Doubled(accepted)
    {
      edges := ScanRow(sim, i, edges, accepted);
      accepted := accepted + RowPairs(sim, i, n);
      i := i + 1;
    }
    forall a, b ensures (a, b) in edges <==> Linked(sim, a, b) {
      EdgesMembers(sim, a, b);
    }
  }

  /** The inner loop for row `i`: appends `[i, j], [j, i]` for every
      accepted `j`, after the edges `done` already produced. */
  method ScanRow(sim: seq<seq<real>>, i: nat, edges: seq<Pair>, ghost done: seq<Pair>)
    returns (out: seq<Pair>)
    requires IsSquare(sim) && i < |sim| && edges == Doubled(done)
    ensures out == Doubled(done + RowPairs(sim, i, |sim|))
  {
    var n := |sim|;
    out := edges;
    var j := i + 1;
    assert done + RowPairs(sim, i, j) == done + [] == done;
    while j < n
      invariant i + 1 <= j <= n
      invariant out == Doubled(done + RowPairs(sim, i, j))
    {
      ScanStep(sim, i, j, done, out);
      if sim[i][j] >= Threshold {
        out := out + [(i, j), (j, i)];
      }
      j := j + 1;
    }
  }

  /** One turn of the inner loop keeps `out` the doubled list of the pairs
      accepted so far. */
  lemma ScanStep(sim: seq<seq<real>>, i: nat, j: nat, done: seq<Pair>, out: seq<Pair>)
    requires IsSquare(sim) && i < j < |sim| && out == Doubled(done + RowPairs(sim, i, j))
    ensures sim[i][j] >= Threshold ==> out + [(i, j), (j, i)] == Doubled(done + RowPairs(sim, i, j + 1))
    ensures sim[i][j] < Threshold ==> out == Doubled(done + RowPairs(sim, i, j + 1))
  {
    RowExtend(sim, i, j, done);
    if sim[i][j] >= Threshold {
      DoubledSnoc(done + RowPairs(sim, i, j), (i, j));
    }
  }

  /** One turn of the inner loop extends the row by at most `(i, j)`. */
  lemma RowStep(sim: seq<seq<real>>, i: nat, j: nat)
    requires IsSquare(sim) && i < j < |sim|
    ensures RowPairs(sim, i, j + 1)
            == RowPairs(sim, i, j) + (if sim[i][j] >= Threshold then [(i, j)] else [])
  {
  }

  /** The same step after the pairs of the earlier rows. */
  lemma RowExtend(sim: seq<seq<real>>, i: nat, j: nat, done: seq<Pair>)
    requires IsSquare(sim) && i < j < |sim|
    ensures sim[i][j] >= Threshold ==> done + RowPairs(sim, i, j + 1) == done + RowPairs(sim, i, j) + [(i, j)]
    ensures sim[i][j] < Threshold ==> RowPairs(sim, i, j + 1) == RowPairs(sim, i, j)
  {
    RowStep(sim, i, j);
    assert RowPairs(sim, i, j) + [] == RowPairs(sim, i, j);
  }

  lemma DoubledSnoc(ps: seq<Pair>, p: Pair)
    ensures Doubled(ps + [p]) == Doubled(ps) + [p, Swap(p)]
  {
    var a, b := Doubled(ps + [p]), Doubled(ps) + [p, Swap(p)];
    forall m | 0 <= m < |a| ensures a[m] == b[m] {
      if m < 2 * |ps| {
        assert m / 2 < |ps|;
      } else {
        assert m / 2 == |ps|;
      }
    }
  }

  // ----------------------------------------------------------- properties

  /** An edge `[a, b]` is in the list exactly when `a` and `b` are linked. */
  lemma EdgesMembers(sim: seq<seq<real>>, a: int, b: int)
    requires IsSquare(sim)
    ensures (a, b) in Edges(sim) <==> Linked(sim, a, b)
  {
    DoubledMembers(Pairs(sim), (a, b));
    PairsMembers(sim, |sim|, (a, b));
    PairsMembers(sim, |sim|, (b, a));
  }

  /** `[a, b]` is present exactly when `[b, a]` is. */
  lemma EdgesSymmetric(sim: seq<seq<real>>, a: int, b: int)
    requires IsSquare(sim)
    ensures (a, b) in Edges(sim) <==> (b, a) in Edges(sim)
  {
    EdgesMembers(sim, a, b);
    EdgesMembers(sim, b, a);
  }

  /** No edge is a self-loop and every endpoint is a row index. */
  lemma EdgesWellFormed(sim: seq<seq<real>>)
    requires IsSquare(sim)
    ensures forall e :: e in Edges(sim) ==> 0 <= e.0 < |sim| && 0 <= e.1 < |sim| && e.0 != e.1
  {
    forall e | e in Edges(sim) ensures 0 <= e.0 < |sim| && 0 <= e.1 < |sim| && e.0 != e.1 {
      EdgesMembers(sim, e.0, e.1);
    }
  }

  /** Within a row the accepted pairs come out with increasing `j`. */
  lemma {:induction false} RowAscending(sim: seq<seq<real>>, i: nat, limit: nat)
    requires IsSquare(sim) && i < |sim| && limit <= |sim|
    ensures StrictlyAscending(RowPairs(sim, i, limit))
    decreases limit
  {
    if limit > i + 1 {
      RowAscending(sim, i, limit - 1);
      RowBounds(sim, i, limit - 1);
      var a := RowPairs(sim, i, limit - 1);
      assert forall s :: 0 <= s < |a| ==> a[s] in a;
    }
  }

  /** The forward pairs come out in strictly increasing `(i, j)` order. */
  lemma {:induction false} PairsAscending(sim: seq<seq<real>>, i: nat)
    requires IsSquare(sim) && i <= |sim|
    ensures StrictlyAscending(PairsBefore(sim, i))
  {
    if i > 0 {
      PairsAscending(sim, i - 1);
      AscendingStep(sim, i);
    }
  }

  /** Appending row `i - 1` to ascending earlier rows keeps them ascending. */
  lemma AscendingStep(sim: seq<seq<real>>, i: nat)
    requires IsSquare(sim) && 0 < i <= |sim|
    requires StrictlyAscending(PairsBefore(sim, i - 1))
    ensures StrictlyAscending(PairsBefore(sim, i))
  {
    RowAscending(sim, i - 1, |sim|);
    PairsBound(sim, i - 1);
    RowBounds(sim, i - 1, |sim|);
    AscendingConcat(PairsBefore(sim, i - 1), RowPairs(sim, i - 1, |sim|), i - 1);
  }

  /** Ascending pairs from rows below `r`, then ascending pairs of row `r`,
      are ascending together. */
  lemma AscendingConcat(a: seq<Pair>, b: seq<Pair>, r: int)
    requires StrictlyAscending(a) && StrictlyAscending(b)
    requires forall p :: p in a ==> p.0 < r
    requires forall p :: p in b ==> p.0 == r
    ensures StrictlyAscending(a + b)
  {
    var ps := a + b;
    forall s, t | 0 <= s < t < |ps| ensures LexLess(ps[s], ps[t]) {
      if t < |a| {
        assert LexLess(a[s], a[t]);
      } else if s >= |a| {
        assert LexLess(b[s - |a|], b[t - |a|]);
      } else {
        assert a[s] in a && b[t - |a|] in b;
      }
    }
  }

  /** The list is the forward pairs, each followed by its reverse: even
      length, the forward edge `[i, j]` has `i < j`, and the forward edges
      appear in strictly increasing `(i, j)` order. */
  lemma EdgesLayout(sim: seq<seq<real>>)
    requires IsSquare(sim)
    ensures var es := Edges(sim);
            var ps := Pairs(sim);
            |es| == 2 * |ps|
            && (forall k :: 0 <= k < |ps| ==> es[2 * k] == ps[k] && es[2 * k + 1] == (ps[k].1, ps[k].0))
            && (forall k :: 0 <= k < |ps| ==> ps[k].0 < ps[k].1)
            && StrictlyAscending(ps)
  {
    var ps := Pairs(sim);
    DoubledIndex(ps);
    PairsAscending(sim, |sim|);
    forall k | 0 <= k < |ps| ensures ps[k].0 < ps[k].1 {
      PairsMembers(sim, |sim|, ps[k]);
    }
  }

  /** The two matrices agree on every entry above the diagonal. */
  predicate SameUpper(sim: seq<seq<real>>, other: seq<seq<real>>)
    requires IsSquare(sim) && IsSquare(other) && |sim| == |other|
  {
    forall a, b :: 0 <= a < b < |sim| ==> sim[a][b] == other[a][b]
  }

  /** Only the upper triangle is read: two matrices that agree above the
      diagonal give the same list. */
  lemma {:induction false} UpperTriangleOnly(sim: seq<seq<real>>, other: seq<seq<real>>, i: nat)
    requires IsSquare(sim) && IsSquare(other) && |sim| == |other| && i <= |sim|
    requires SameUpper(sim, other)
    ensures PairsBefore(sim, i) == PairsBefore(other, i)
  {
    if i > 0 {
      UpperTriangleOnly(sim, other, i - 1);
      RowsAgree(sim, other, i - 1, |sim|);
      PairsStep(sim, other, i);
    }
  }

  /** Agreeing on the earlier rows and on row `i - 1` is agreeing on the
      first `i` rows. */
  lemma PairsStep(sim: seq<seq<real>>, other: seq<seq<real>>, i: nat)
    requires IsSquare(sim) && IsSquare(other) && |sim| == |other| && 0 < i <= |sim|
    requires PairsBefore(sim, i - 1) == PairsBefore(other, i - 1)
    requires RowPairs(sim, i - 1, |sim|) == RowPairs(other, i - 1, |other|)
    ensures PairsBefore(sim, i) == PairsBefore(other, i)
  {
  }

  lemma {:induction false} RowsAgree(sim: seq<seq<real>>, other: seq<seq<real>>, i: nat, limit: nat)
    requires IsSquare(sim) && IsSquare(other) && |sim| == |other| && i < |sim| && limit <= |sim|
    requires SameUpper(sim, other)
    ensures RowPairs(sim, i, limit) == RowPairs(other, i, limit)
    decreases limit
  {
    if limit > i + 1 {
      RowsAgree(sim, other, i, limit - 1);
      assert sim[i][limit - 1] == other[i][limit - 1];
    }
  }

  /** `Edges` depends only on the entries above the diagonal. */
  lemma EdgesUpperTriangleOnly(sim: seq<seq<real>>, other: seq<seq<real>>)
    requires IsSquare(sim) && IsSquare(other) && |sim| == |other|
    requires SameUpper(sim, other)
    ensures Edges(sim) == Edges(other)
  {
    UpperTriangleOnly(sim, other, |sim|);
  }
}

=== FILE: graph_types.dfy ===
/** The graph payload shared by the backend producer and the frontend
    consumer: `{ nodes: [{ id, label, group }], edges: [{ from, to, weight }] }`. */
module GraphTypes {
  import opened Wrappers

  /** The group tag that marks the focal node of a graph. */
  const QueryGroup: string := "query"

  // `caption` is the payload's `label` field (`label` is a Dafny keyword).
  datatype Node = Node(id: string, caption: string, group: string)

  /** An edge; `weight` is `None` when the payload omits it. */
  datatype Edge = Edge(from: string, to: string, weight: Option<real>)

  datatype GraphData = GraphData(nodes: seq<Node>, edges: seq<Edge>)

  /** The decimal digit character for `d`. */
  function DigitChar(d: nat): (c: char)
    requires d < 10
  {
    (48 + d) as char
  }

  /** The decimal text of a non-negative integer id, as JavaScript's `String`
      renders a JSON number: the backend sends integer ids and the frontend
      compares them as strings. */
  function DecimalId(n: nat): (s: string)
    ensures |s| >= 1
    ensures n < 10 <==> |s| == 1
    ensures forall i :: 0 <= i < |s| ==> '0' <= s[i] <= '9'
  {
    if n < 10 then [DigitChar(n)] else DecimalId(n / 10) + [DigitChar(n % 10)]
  }

  /** The text of any integer id: a minus sign before the digits of a
      negative one. */
  function SignedId(n: int): string {
    if n < 0 then "-" + DecimalId(-n) else DecimalId(n)
  }

  /** Distinct integers have distinct decimal texts, so converting ids to
      strings merges no two nodes. */
  lemma {:induction false} DecimalIdInjective(a: nat, b: nat)
    requires DecimalId(a) == DecimalId(b)
    ensures a == b
    decreases a
  {
    var s := DecimalId(a);
    if a < 10 || b < 10 {
      assert a < 10 && b < 10;
      assert s[0] == DigitChar(a) && s[0] == DigitChar(b);
    } else {
      var pa, pb := DecimalId(a / 10), DecimalId(b / 10);
      assert s == pa + [DigitChar(a % 10)];
      assert s == pb + [DigitChar(b % 10)];
      assert |pa| == |pb|;
      assert pa == s[..|s| - 1] == pb;
      DecimalIdInjective(a / 10, b / 10);
      assert DigitChar(a % 10) == s[|s| - 1] == DigitChar(b % 10);
    }
  }
}

=== FILE: layout.dfy ===
/** The deterministic radial layout of the graph view
    (frontend/components/graph-visualization.tsx, lines 62-110): the query
    node at the centre, its neighbours on a ring ordered by descending weight
    and pulled inwards by weight, and every remaining node on an outer ring.

    Positions are kept in polar form relative to the surface centre: the angle
    as a fraction of a full turn and the radius. Turning them into Cartesian
    points needs cosine and sine, which the renderer takes as parameters. */
module RadialLayout {
  import opened Wrappers
  import opened Seqs
  import opened GraphTypes
  import opened NeighbourSort

  /** Where a node sits: exactly on the surface centre, or `radius` away from
      it at `turn` full turns (angle `turn * 2 * pi`). */
  datatype Placement = Centre | Polar(turn: real, radius: real)

  /** The layout's result, keyed by node id. */
  type Positions = map<string, Placement>

  /** One `Map.set` call: the key and the value written. */
  type Write = (string, Placement)

  // ---------------------------------------------------------------- centre

  /** The index of the first node of the query group, if any
      (`nodes.find(n => n.group === 'query')`). */
  function FindQuery(nodes: seq<Node>): (r: Option<nat>)
    ensures r.Some? ==> r.value < |nodes| && nodes[r.value].group == QueryGroup
    ensures r.Some? ==> forall j :: 0 <= j < r.value ==> nodes[j].group != QueryGroup
    ensures r.None? <==> forall j :: 0 <= j < |nodes| ==> nodes[j].group != QueryGroup
  {
    if nodes == [] then None
    else if nodes[0].group == QueryGroup then Some(0)
    else match FindQuery(nodes[1..])
      case None => None
      case Some(i) => Some(i + 1)
  }

  /** The index of the centre node: the first query node, else the first node. */
  function CentreIndex(nodes: seq<Node>): (i: nat)
    requires |nodes| > 0
    ensures i < |nodes|
    ensures forall j :: 0 <= j < i ==> nodes[j].group != QueryGroup
    ensures nodes[i].group == QueryGroup
            || (i == 0 && forall j :: 0 <= j < |nodes| ==> nodes[j].group != QueryGroup)
  {
    match FindQuery(nodes)
    case Some(i) => i
    case None => 0
  }

  function CentreId(nodes: seq<Node>): string
    requires |nodes| > 0
  {
    nodes[CentreIndex(nodes)].id
  }

  // ------------------------------------------------------------ neighbours

  /** The edge touches the node `c`, in either direction. */
  predicate Incident(e: Edge, c: string) {
    e.from == c || e.to == c
  }

  /** The endpoint of `e` reported as the neighbour of `c`: `to` when `from`
      is `c`, else `from`. */
  function OtherEnd(e: Edge, c: string): string {
    if e.from == c then e.to else e.from
  }

  /** The edge's weight, 0 when it is missing (`e.weight ?? 0`). */
  function WeightOrZero(e: Edge): real {
    match e.weight
    case None => 0.0
    case Some(w) => w
  }

  function AsNeighbour(e: Edge, c: string): Neighbour {
    Neighbour(OtherEnd(e, c), WeightOrZero(e))
  }

  /** One neighbour entry per edge incident to `c`, in edge order; duplicates
      and dangling endpoints are kept. */
  function Neighbours(edges: seq<Edge>, c: string): (r: seq<Neighbour>)
    ensures |r| == |Filter(edges, IncidentTo(c))|
    ensures forall nb :: nb in r <==> exists e :: e in edges && Incident(e, c) && nb == AsNeighbour(e, c)
    ensures var touching := Filter(edges, IncidentTo(c));
            r == seq(|touching|, i requires 0 <= i < |touching| => AsNeighbour(touching[i], c))
  {
    if edges == [] then []
    else
      var rest := Neighbours(edges[1..], c);
      assert edges == [edges[0]] + edges[1..];
      var r := (if Incident(edges[0], c) then [AsNeighbour(edges[0], c)] else []) + rest;
      NeighboursStep(edges, c, rest, r);
      r
  }

  /** `Incident` with the centre fixed, as a filter predicate. */
  function IncidentTo(c: string): Edge -> bool {
    (e: Edge) => Incident(e, c)
  }

  /** One step of the edge walk: prepending the first edge's neighbour, when
      it touches the centre, keeps the neighbours aligned with the filter. */
  lemma NeighboursStep(edges: seq<Edge>, c: string, rest: seq<Neighbour>, r: seq<Neighbour>)
    requires edges != []
    requires var t := Filter(edges[1..], IncidentTo(c));
             rest == seq(|t|, i requires 0 <= i < |t| => AsNeighbour(t[i], c))
    requires r == (if Incident(edges[0], c) then [AsNeighbour(edges[0], c)] else []) + rest
    ensures var t := Filter(edges, IncidentTo(c));
            r == seq(|t|, i requires 0 <= i < |t| => AsNeighbour(t[i], c))
  {
    var t := Filter(edges, IncidentTo(c));
    var t1 := Filter(edges[1..], IncidentTo(c));
    var head := if Incident(edges[0], c) then [edges[0]] else [];
    assert t == head + t1;
    assert |r| == |t|;
    forall i | 0 <= i < |t| ensures r[i] == AsNeighbour(t[i], c) {
      if i >= |head| {
        assert t[i] == t1[i - |head|];
      }
    }
  }

  /** The ids of a neighbour sequence. */
  function NeighbourIds(nbs: seq<Neighbour>): set<string> {
    set i | 0 <= i < |nbs| :: nbs[i].id
  }

  /** The ids of a node sequence. */
  function NodeIds(nodes: seq<Node>): set<string> {
    set i | 0 <= i < |nodes| :: nodes[i].id
  }

  /** The neighbours of the centre node, strongest first. */
  function RankedNeighbours(g: GraphData): (r: seq<Neighbour>)
    requires |g.nodes| > 0
  {
    SortDesc(Neighbours(g.edges, CentreId(g.nodes)))
  }

  // ---------------------------------------------------------------- radii

  function Min(a: real, b: real): real {
    if a <= b then a else b
  }

  function Max(a: real, b: real): real {
    if a >= b then a else b
  }

  /** `Math.max(0, Math.min(1, x))`. */
  function Clamp01(x: real): (r: real)
    ensures 0.0 <= r <= 1.0
    ensures 0.0 <= x <= 1.0 ==> r == x
    ensures x < 0.0 ==> r == 0.0
    ensures x > 1.0 ==> r == 1.0
  {
    Max(0.0, Min(1.0, x))
  }

  /** The radius of the neighbour ring: 35% of the shorter side. */
  function RingRadius(width: real, height: real): (r: real)
    ensures width >= 0.0 && height >= 0.0 ==> 0.0 <= r
    ensures r <= 0.35 * width && r <= 0.35 * height
    ensures width <= height ==> r == 0.35 * width
    ensures height <= width ==> r == 0.35 * height
  {
    Min(width, height) * 0.35
  }

  /** A neighbour's distance from the centre: the ring radius shrunk by up to
      35% as the clamped weight grows. */
  function NeighbourRadius(ring: real, weight: real): (r: real)
    ensures ring >= 0.0 ==> 0.65 * ring <= r <= ring
  {
    var w := Clamp01(weight);
    assert ring * (1.0 - 0.35 * w) == ring - 0.35 * (ring * w);
    assert ring >= 0.0 ==> 0.0 <= ring * w <= ring;
    ring * (1.0 - 0.35 * w)
  }

  /** The radius of the outer ring. */
  function OuterRadius(ring: real): (r: real)
    ensures ring > 0.0 ==> r > ring
  {
    ring * 1.05
  }

  /** `neighbors.length || 1`: the number of ring slots, never zero. */
  function Slots(count: nat): (n: nat)
    ensures n >= 1
    ensures count > 0 ==> n == count
  {
    if count == 0 then 1 else count
  }

  // --------------------------------------------------------------- writes

  /** Slot `slot` of `total` equal slots, as a fraction of a full turn. */
  function Turn(slot: nat, total: nat): real
    requires total > 0
  {
    slot as real / total as real
  }

  /** The writes of the neighbour loop: entry `i` of the ranked sequence goes
      to turn `i / n` on the weight-scaled radius. */
  function NeighbourWrites(nbs: seq<Neighbour>, ring: real): (ws: seq<Write>)
    ensures |ws| == |nbs|
  {
    seq(|nbs|, i requires 0 <= i < |nbs| =>
      (nbs[i].id, Polar(Turn(i, Slots(|nbs|)), NeighbourRadius(ring, nbs[i].weight))))
  }

  /** The writes of the outer loop: entry `i` of the unplaced nodes goes to turn
      `(i + offset) / total` on the outer ring. */
  function OuterWrites(others: seq<Node>, offset: nat, total: nat, ring: real): (ws: seq<Write>)
    requires total > 0
    ensures |ws| == |others|
  {
    seq(|others|, i requires 0 <= i < |others| =>
      (others[i].id, Polar(Turn(i + offset, total), OuterRadius(ring))))
  }

  function WrittenKeys(ws: seq<Write>): set<string> {
    set i | 0 <= i < |ws| :: ws[i].0
  }

  /** Applies the writes in order to `m`; a later write to a key replaces an
      earlier one. */
  function Assign(m: Positions, ws: seq<Write>): (r: Positions)
    ensures r.Keys == m.Keys + WrittenKeys(ws)
    decreases |ws|
  {
    if ws == [] then m
    else
      var init := ws[..|ws| - 1];
      assert WrittenKeys(ws) == WrittenKeys(init) + {ws[|ws| - 1].0} by {
        assert forall i :: 0 <= i < |init| ==> init[i] == ws[i];
      }
      Assign(m, init)[ws[|ws| - 1].0 := ws[|ws| - 1].1]
  }

  /** The last write to a key decides its value. */
  lemma {:induction false} AssignLastWrite(m: Positions, ws: seq<Write>, i: nat)
    requires i < |ws|
    requires forall j :: i < j < |ws| ==> ws[j].0 != ws[i].0
    ensures Assign(m, ws)[ws[i].0] == ws[i].1
    decreases |ws|
  {
    if i < |ws| - 1 {
      var init := ws[..|ws| - 1];
      assert init[i] == ws[i];
      AssignLastWrite(m, init, i);
    }
  }

  /** Write `i` is the last write to `k`. */
  predicate LastWrite(ws: seq<Write>, k: string, i: int) {
    0 <= i < |ws| && ws[i].0 == k && forall j :: i < j < |ws| ==> ws[j].0 != k
  }

  /** A written key holds the value of its last write. */
  lemma {:induction false} AssignWritten(m: Positions, ws: seq<Write>, k: string)
    requires k in WrittenKeys(ws)
    ensures exists i :: LastWrite(ws, k, i) && Assign(m, ws)[k] == ws[i].1
    decreases |ws|
  {
    var last := |ws| - 1;
    var init := ws[..last];
    assert Assign(m, ws) == Assign(m, init)[ws[last].0 := ws[last].1];
    if ws[last].0 == k {
      assert LastWrite(ws, k, last) && Assign(m, ws)[k] == ws[last].1;
    } else {
      assert k in WrittenKeys(init) by {
        var i :| 0 <= i < |ws| && ws[i].0 == k;
        assert i < last && init[i] == ws[i];
      }
      AssignWritten(m, init, k);
      var i :| LastWrite(init, k, i) && Assign(m, init)[k] == init[i].1;
      assert ws == init + [ws[last]];
      LastWriteExtends(init, ws[last], k, i);
      AssignOther(m, init, ws[last], k);
      assert ws[i] == init[i];
    }
  }

  /** A write to another key leaves the value of `k` alone. */
  lemma AssignOther(m: Positions, ws: seq<Write>, w: Write, k: string)
    requires k in Assign(m, ws) && w.0 != k
    ensures k in Assign(m, ws + [w]) && Assign(m, ws + [w])[k] == Assign(m, ws)[k]
  {
    assert (ws + [w])[..|ws|] == ws;
  }

  /** A write to another key leaves the last write to `k` in place. */
  lemma LastWriteExtends(ws: seq<Write>, w: Write, k: string, i: int)
    requires LastWrite(ws, k, i) && w.0 != k
    ensures LastWrite(ws + [w], k, i)
  {
    var ext := ws + [w];
    forall j | i < j < |ext| ensures ext[j].0 != k {
      if j < |ws| {
        assert ext[j] == ws[j];
      }
    }
  }

  /** A key no write touches keeps its value. */
  lemma {:induction false} AssignUntouched(m: Positions, ws: seq<Write>, k: string)
    requires k in m && k !in WrittenKeys(ws)
    ensures Assign(m, ws)[k] == m[k]
    decreases |ws|
  {
    if ws != [] {
      var init := ws[..|ws| - 1];
      assert k !in WrittenKeys(init);
      AssignUntouched(m, init, k);
    }
  }

  // --------------------------------------------------------------- layout

  /** The positions after the centre and the neighbour loop. */
  function InnerPositions(g: GraphData, width: real, height: real): Positions
    requires |g.nodes| > 0
  {
    Assign(map[CentreId(g.nodes) := Centre],
           NeighbourWrites(RankedNeighbours(g), RingRadius(width, height)))
  }

  /** The nodes the outer loop places: those without a position yet, in input
      order. The set of placed ids is taken once, before the loop. */
  function Unplaced(g: GraphData, width: real, height: real): seq<Node>
    requires |g.nodes| > 0
  {
    Filter(g.nodes, Unseen(InnerPositions(g, width, height)))
  }

  /** The test "has no position in `placed`", as a value, so that every use
      names the same function. */
  function Unseen(placed: Positions): Node -> bool {
    (nd: Node) => nd.id !in placed
  }

  /** The outer loop visits exactly the nodes without an inner position. */
  lemma UnplacedMembers(g: GraphData, width: real, height: real)
    requires |g.nodes| > 0
    ensures var inner, others := InnerPositions(g, width, height), Unplaced(g, width, height);
            && (forall k :: 0 <= k < |others| ==> others[k] in g.nodes && others[k].id !in inner)
            && (forall i :: 0 <= i < |g.nodes| && g.nodes[i].id !in inner ==> g.nodes[i] in others)
  {
    FilterMembers(g.nodes, Unseen(InnerPositions(g, width, height)));
  }

  /** The radial layout of `g` on a `width` x `height` surface. */
  function Layout(g: GraphData, width: real, height: real): (r: Positions)
    requires |g.nodes| > 0
    ensures CentreId(g.nodes) in r
    ensures forall i :: 0 <= i < |g.nodes| ==> g.nodes[i].id in r
  {
    var inner := InnerPositions(g, width, height);
    var others := Unplaced(g, width, height);
    UnplacedMembers(g, width, height);
    var r := Assign(inner, OuterWrites(others, |RankedNeighbours(g)|, |g.nodes|,
                                       RingRadius(width, height)));
    assert forall i :: 0 <= i < |g.nodes| ==> g.nodes[i].id in r by {
      forall i | 0 <= i < |g.nodes| ensures g.nodes[i].id in r {
        var nd := g.nodes[i];
        if nd.id !in inner {
          var k :| 0 <= k < |others| && others[k] == nd;
          assert OuterWrites(others, |RankedNeighbours(g)|, |g.nodes|, RingRadius(width, height))[k].0 == nd.id;
        }
      }
    }
    r
  }
}

=== FILE: layout_properties.dfy ===
/** What the radial layout guarantees (graph-visualization.tsx, lines 62-110):
    which ids get a position, where the centre, the neighbours and the
    remaining nodes end up, and how the writes to one id interact. */
module LayoutProperties {
  import opened Seqs
  import opened GraphTypes
  import opened NeighbourSort
  import opened RadialLayout

  /** Sorting keeps the set of neighbour ids. */
  lemma RankedIds(s: seq<Neighbour>)
    ensures NeighbourIds(SortDesc(s)) == NeighbourIds(s)
  {
    var r := SortDesc(s);
    forall id | id in NeighbourIds(r) ensures id in NeighbourIds(s) {
      var i :| 0 <= i < |r| && r[i].id == id;
      assert r[i] in multiset(s);
      var j :| 0 <= j < |s| && s[j] == r[i];
    }
    forall id | id in NeighbourIds(s) ensures id in NeighbourIds(r) {
      var j :| 0 <= j < |s| && s[j].id == id;
      assert s[j] in multiset(r);
      var i :| 0 <= i < |r| && r[i] == s[j];
    }
  }

  lemma NeighbourWriteKeys(nbs: seq<Neighbour>, ring: real)
    ensures WrittenKeys(NeighbourWrites(nbs, ring)) == NeighbourIds(nbs)
  {
    var ws := NeighbourWrites(nbs, ring);
    assert forall i :: 0 <= i < |nbs| ==> ws[i].0 == nbs[i].id;
  }

  lemma OuterWriteKeys(others: seq<Node>, offset: nat, total: nat, ring: real)
    requires total > 0
    ensures WrittenKeys(OuterWrites(others, offset, total, ring)) == NodeIds(others)
  {
    var ws := OuterWrites(others, offset, total, ring);
    assert forall i :: 0 <= i < |others| ==> ws[i].0 == others[i].id;
  }

  /** The ids placed by the first two steps: the centre and every neighbour. */
  lemma InnerKeys(g: GraphData, width: real, height: real)
    requires |g.nodes| > 0
    ensures InnerPositions(g, width, height).Keys
            == {CentreId(g.nodes)} + NeighbourIds(Neighbours(g.edges, CentreId(g.nodes)))
  {
    RankedIds(Neighbours(g.edges, CentreId(g.nodes)));
    NeighbourWriteKeys(RankedNeighbours(g), RingRadius(width, height));
  }

  /** The nodes that reach the outer loop are, in input order, exactly those
      that are neither the centre nor a neighbour of it. */
  lemma UnplacedNodes(g: GraphData, width: real, height: real)
    requires |g.nodes| > 0
    ensures var c := CentreId(g.nodes);
            var ids := NeighbourIds(Neighbours(g.edges, c));
            Unplaced(g, width, height)
            == Filter(g.nodes, (nd: Node) => nd.id != c && nd.id !in ids)
  {
    var c := CentreId(g.nodes);
    var ids := NeighbourIds(Neighbours(g.edges, c));
    var placed := InnerPositions(g, width, height);
    InnerKeys(g, width, height);
    FilterCongruent(g.nodes, Unseen(placed),
                    (nd: Node) => nd.id != c && nd.id !in ids);
  }

  /** Every id that is the centre, a neighbour or a node is positioned, and no
      other id is. */
  lemma LayoutDomain(g: GraphData, width: real, height: real)
    requires |g.nodes| > 0
    ensures var c := CentreId(g.nodes);
            Layout(g, width, height).Keys
            == {c} + NeighbourIds(Neighbours(g.edges, c)) + NodeIds(g.nodes)
  {
    var c := CentreId(g.nodes);
    var inner := InnerPositions(g, width, height);
    var others := Unplaced(g, width, height);
    InnerKeys(g, width, height);
    UnplacedMembers(g, width, height);
    OuterWriteKeys(others, |RankedNeighbours(g)|, |g.nodes|, RingRadius(width, height));
    assert NodeIds(others) <= NodeIds(g.nodes) by {
      forall id | id in NodeIds(others) ensures id in NodeIds(g.nodes) {
        var i :| 0 <= i < |others| && others[i].id == id;
        var j :| 0 <= j < |g.nodes| && g.nodes[j] == others[i];
      }
    }
    assert NodeIds(g.nodes) <= inner.Keys + NodeIds(others) by {
      forall id | id in NodeIds(g.nodes) ensures id in inner.Keys + NodeIds(others) {
        var j :| 0 <= j < |g.nodes| && g.nodes[j].id == id;
        if id !in inner.Keys {
          var i :| 0 <= i < |others| && others[i] == g.nodes[j];
        }
      }
    }
  }

  /** The centre id appears among its own neighbours exactly when some edge is
      a self-loop on the centre. */
  lemma CentreAmongNeighbours(edges: seq<Edge>, c: string)
    ensures c in NeighbourIds(Neighbours(edges, c))
            <==> exists e :: e in edges && e.from == c && e.to == c
  {
    var nbs := Neighbours(edges, c);
    if c in NeighbourIds(nbs) {
      var i :| 0 <= i < |nbs| && nbs[i].id == c;
      assert nbs[i] in nbs;
      var e :| e in edges && Incident(e, c) && nbs[i] == AsNeighbour(e, c);
    }
    if e :| e in edges && e.from == c && e.to == c {
      assert AsNeighbour(e, c) in nbs;
      var i :| 0 <= i < |nbs| && nbs[i] == AsNeighbour(e, c);
    }
  }

  /** Ids placed by the first two steps are never moved by the outer loop. */
  lemma InnerKept(g: GraphData, width: real, height: real, id: string)
    requires |g.nodes| > 0
    requires id in InnerPositions(g, width, height)
    ensures id in Layout(g, width, height)
    ensures Layout(g, width, height)[id] == InnerPositions(g, width, height)[id]
  {
    var inner := InnerPositions(g, width, height);
    var others := Unplaced(g, width, height);
    var ws := OuterWrites(others, |RankedNeighbours(g)|, |g.nodes|, RingRadius(width, height));
    OuterWriteKeys(others, |RankedNeighbours(g)|, |g.nodes|, RingRadius(width, height));
    UnplacedMembers(g, width, height);
    assert id !in NodeIds(others);
    AssignUntouched(inner, ws, id);
  }

  /** The centre node stays exactly on the surface centre unless a self-loop
      on it gives it a ring position. */
  lemma LayoutCentre(g: GraphData, width: real, height: real)
    requires |g.nodes| > 0
    ensures var c := CentreId(g.nodes);
            Layout(g, width, height)[c] == Centre
            <==> !exists e :: e in g.edges && e.from == c && e.to == c
  {
    var c := CentreId(g.nodes);
    var ws := NeighbourWrites(RankedNeighbours(g), RingRadius(width, height));
    InnerKeys(g, width, height);
    InnerKept(g, width, height, c);
    CentreAmongNeighbours(g.edges, c);
    RankedIds(Neighbours(g.edges, c));
    NeighbourWriteKeys(RankedNeighbours(g), RingRadius(width, height));
    if c in WrittenKeys(ws) {
      AssignWritten(map[c := Centre], ws, c);
    } else {
      AssignUntouched(map[c := Centre], ws, c);
    }
  }

  /** The ranked neighbour at index `i`, when no later neighbour shares its id,
      sits at turn `i / n` (`n` the neighbour count, at least 1) on the radius
      its weight selects. */
  lemma LayoutNeighbourSlot(g: GraphData, width: real, height: real, i: nat)
    requires |g.nodes| > 0
    requires i < |RankedNeighbours(g)|
    requires forall j :: i < j < |RankedNeighbours(g)| ==>
               RankedNeighbours(g)[j].id != RankedNeighbours(g)[i].id
    ensures var nbs := RankedNeighbours(g);
            var pos := Layout(g, width, height);
            nbs[i].id in pos
            && pos[nbs[i].id] == Polar(Turn(i, Slots(|nbs|)),
                     NeighbourRadius(RingRadius(width, height), nbs[i].weight))
  {
    var nbs := RankedNeighbours(g);
    var c := CentreId(g.nodes);
    var ws := NeighbourWrites(nbs, RingRadius(width, height));
    assert ws[i] == (nbs[i].id, Polar(Turn(i, Slots(|nbs|)),
                                      NeighbourRadius(RingRadius(width, height), nbs[i].weight)));
    assert forall j :: i < j < |ws| ==> ws[j].0 == nbs[j].id;
    AssignLastWrite(map[c := Centre], ws, i);
    assert InnerPositions(g, width, height)[nbs[i].id] == ws[i].1;
    InnerKept(g, width, height, nbs[i].id);
  }

  /** Every neighbour id lies on the neighbour ring, between 65% and 100% of
      the ring radius. */
  lemma LayoutNeighbourRadius(g: GraphData, width: real, height: real, id: string)
    requires |g.nodes| > 0
    requires width >= 0.0 && height >= 0.0
    requires id in NeighbourIds(Neighbours(g.edges, CentreId(g.nodes)))
    ensures var pos := Layout(g, width, height);
            var ring := RingRadius(width, height);
            id in pos && pos[id].Polar? && 0.65 * ring <= pos[id].radius <= ring
  {
    var nbs := RankedNeighbours(g);
    var c := CentreId(g.nodes);
    var ws := NeighbourWrites(nbs, RingRadius(width, height));
    RankedIds(Neighbours(g.edges, c));
    NeighbourWriteKeys(nbs, RingRadius(width, height));
    AssignWritten(map[c := Centre], ws, id);
    InnerKeys(g, width, height);
    InnerKept(g, width, height, id);
  }

  /** The unplaced node at index `k`, when no later unplaced node shares its
      id, sits at turn `(k + neighbour count) / node count` on the outer ring. */
  lemma LayoutOuterSlot(g: GraphData, width: real, height: real, k: nat)
    requires |g.nodes| > 0
    requires LastOfId(Unplaced(g, width, height), k)
    ensures var pos := Layout(g, width, height);
            var id := Unplaced(g, width, height)[k].id;
            id in pos
            && pos[id] == Polar(Turn(k + |RankedNeighbours(g)|, |g.nodes|),
                     OuterRadius(RingRadius(width, height)))
  {
    LayoutIsAssign(g, width, height);
    OuterSlot(InnerPositions(g, width, height), Unplaced(g, width, height), |RankedNeighbours(g)|,
              |g.nodes|, RingRadius(width, height), k);
  }

  /** Node `k` of `s` is the last one with its id. */
  predicate LastOfId(s: seq<Node>, k: nat) {
    k < |s| && forall j :: k < j < |s| ==> s[j].id != s[k].id
  }

  /** The layout is the inner placement followed by the outer loop's writes. */
  lemma LayoutIsAssign(g: GraphData, width: real, height: real)
    requires |g.nodes| > 0
    ensures Layout(g, width, height)
            == Assign(InnerPositions(g, width, height),
                      OuterWrites(Unplaced(g, width, height), |RankedNeighbours(g)|, |g.nodes|,
                                  RingRadius(width, height)))
  {
  }

  /** The outer loop's write for node `k` survives when no later node shares
      its id. */
  lemma OuterSlot(inner: Positions, others: seq<Node>, offset: nat, total: nat, ring: real, k: nat)
    requires total > 0 && LastOfId(others, k)
    ensures var pos := Assign(inner, OuterWrites(others, offset, total, ring));
            others[k].id in pos
            && pos[others[k].id] == Polar(Turn(k + offset, total), OuterRadius(ring))
  {
    var ws := OuterWrites(others, offset, total, ring);
    assert ws[k] == (others[k].id, Polar(Turn(k + offset, total), OuterRadius(ring)));
    assert forall j :: k < j < |ws| ==> ws[j].0 != ws[k].0 by {
      forall j | k < j < |ws| ensures ws[j].0 != ws[k].0 {
        assert ws[j].0 == others[j].id;
      }
    }
    AssignLastWrite(inner, ws, k);
  }

  /** A node that is neither the centre nor a neighbour lands on the outer
      ring, strictly outside every neighbour when the ring radius is positive. */
  lemma LayoutOuterRadius(g: GraphData, width: real, height: real, nd: Node)
    requires |g.nodes| > 0
    requires nd in g.nodes
    requires nd.id != CentreId(g.nodes)
    requires nd.id !in NeighbourIds(Neighbours(g.edges, CentreId(g.nodes)))
    ensures var pos := Layout(g, width, height);
            var ring := RingRadius(width, height);
            nd.id in pos && pos[nd.id].Polar? && pos[nd.id].radius == OuterRadius(ring)
            && (ring > 0.0 ==> forall w :: pos[nd.id].radius > NeighbourRadius(ring, w))
  {
    var others := Unplaced(g, width, height);
    var ws := OuterWrites(others, |RankedNeighbours(g)|, |g.nodes|, RingRadius(width, height));
    InnerKeys(g, width, height);
    UnplacedMembers(g, width, height);
    var j :| 0 <= j < |g.nodes| && g.nodes[j] == nd;
    assert nd in others;
    var i :| 0 <= i < |others| && others[i] == nd;
    OuterWriteKeys(others, |RankedNeighbours(g)|, |g.nodes|, RingRadius(width, height));
    AssignWritten(InnerPositions(g, width, height), ws, nd.id);
  }

  /** Of two ranked neighbours with their own ids, the earlier (stronger) one
      is at most as far from the centre as the later one. */
  lemma LayoutRadiusFollowsRank(g: GraphData, width: real, height: real, i: nat, j: nat)
    requires |g.nodes| > 0
    requires width >= 0.0 && height >= 0.0
    requires i < j < |RankedNeighbours(g)|
    requires forall k :: i < k < |RankedNeighbours(g)| ==>
               RankedNeighbours(g)[k].id != RankedNeighbours(g)[i].id
    requires forall k :: j < k < |RankedNeighbours(g)| ==>
               RankedNeighbours(g)[k].id != RankedNeighbours(g)[j].id
    ensures var nbs := RankedNeighbours(g);
            var pos := Layout(g, width, height);
            nbs[i].id in pos && nbs[j].id in pos && pos[nbs[i].id].Polar? && pos[nbs[j].id].Polar?
            && pos[nbs[i].id].radius <= pos[nbs[j].id].radius
  {
    var nbs := RankedNeighbours(g);
    LayoutNeighbourSlot(g, width, height, i);
    LayoutNeighbourSlot(g, width, height, j);
    RadiusAntitone(RingRadius(width, height), nbs[j].weight, nbs[i].weight);
  }

  /** A heavier edge never puts its neighbour further out. */
  lemma RadiusAntitone(ring: real, w1: real, w2: real)
    requires ring >= 0.0
    requires w1 <= w2
    ensures NeighbourRadius(ring, w2) <= NeighbourRadius(ring, w1)
  {
    var c1, c2 := Clamp01(w1), Clamp01(w2);
    assert c1 <= c2;
    assert ring * (0.35 * c2 - 0.35 * c1) >= 0.0;
  }

  /** The two ends of the scale: no weight keeps the full ring radius, and a
      weight of one or more pulls the neighbour in to 65% of it. */
  lemma RadiusEnds(ring: real, weight: real)
    ensures weight <= 0.0 ==> NeighbourRadius(ring, weight) == ring
    ensures weight >= 1.0 ==> NeighbourRadius(ring, weight) == 0.65 * ring
  {
  }

  /** Within the clamping range a heavier edge puts its neighbour strictly
      closer, so different weights stay visibly apart. */
  lemma RadiusDecreasing(ring: real, w1: real, w2: real)
    requires ring > 0.0
    requires 0.0 <= w1 < w2 <= 1.0
    ensures NeighbourRadius(ring, w2) < NeighbourRadius(ring, w1)
  {
    assert Clamp01(w1) == w1 && Clamp01(w2) == w2;
    var r1, r2 := NeighbourRadius(ring, w1), NeighbourRadius(ring, w2);
    var gap := ring * (w2 - w1);
    assert gap > 0.0;
    assert r1 - r2 == 0.35 * gap;
  }

  /** When every edge leaves the centre, the neighbours are the edges'
      targets with their weights, in edge order. */
  lemma {:induction false} NeighboursOfOutgoing(edges: seq<Edge>, c: string)
    requires forall i :: 0 <= i < |edges| ==> edges[i].from == c
    ensures Neighbours(edges, c)
            == seq(|edges|, i requires 0 <= i < |edges| =>
                 Neighbour(edges[i].to, WeightOrZero(edges[i])))
    decreases |edges|
  {
    if edges != [] {
      NeighboursOfOutgoing(edges[1..], c);
    }
  }
}

=== FILE: neighbour_sort.dfy ===
/** The ordering step of the radial layout: the query's neighbours sorted by
    descending weight with a stable sort, as `Array.prototype.sort` does with
    the comparator `(a, b) => b.weight - a.weight`. */
module NeighbourSort {
  import opened Seqs

  /** A neighbour of the query: the other endpoint's id and the edge weight. */
  datatype Neighbour = Neighbour(id: string, weight: real)

  /** Weights never increase from left to right. */
  predicate NonIncreasing(s: seq<Neighbour>) {
    forall i, j :: 0 <= i < j < |s| ==> s[i].weight >= s[j].weight
  }

  /** The neighbours of `s` whose weight is exactly `v`, in order. A sort is
      stable when it leaves every such class in its input order. */
  function WithWeight(s: seq<Neighbour>, v: real): seq<Neighbour> {
    Filter(s, HasWeight(v))
  }

  /** The test `nb.weight == v`, as a value, so that every use names the
      same function. */
  function HasWeight(v: real): Neighbour -> bool {
    (nb: Neighbour) => nb.weight == v
  }

  /** Puts `x` into the sorted `t` ahead of every element that does not
      outweigh it, so `x` precedes the elements of equal weight. */
  function Insert(x: Neighbour, t: seq<Neighbour>): (r: seq<Neighbour>)
    requires NonIncreasing(t)
    ensures NonIncreasing(r)
    ensures multiset(r) == multiset(t) + multiset{x}
  {
    if t == [] then [x]
    else if t[0].weight <= x.weight then [x] + t
    else
      TailNonIncreasing(t);
      var rest := Insert(x, t[1..]);
      InsertBounded(x, t, rest);
      ConsNonIncreasing(t[0], rest);
      assert t == [t[0]] + t[1..];
      [t[0]] + rest
  }

  lemma TailNonIncreasing(t: seq<Neighbour>)
    requires NonIncreasing(t) && |t| > 0
    ensures NonIncreasing(t[1..])
    ensures forall j :: 0 <= j < |t[1..]| ==> t[1..][j].weight <= t[0].weight
  {
    assert forall j :: 0 <= j < |t[1..]| ==> t[1..][j] == t[j + 1];
  }

  /** Everything in `rest`, a rearrangement of the tail of `t` and a lighter
      `x`, is at most as heavy as the head of `t`. */
  lemma InsertBounded(x: Neighbour, t: seq<Neighbour>, rest: seq<Neighbour>)
    requires NonIncreasing(t) && |t| > 0 && x.weight < t[0].weight
    requires multiset(rest) == multiset(t[1..]) + multiset{x}
    ensures forall j :: 0 <= j < |rest| ==> rest[j].weight <= t[0].weight
  {
    TailNonIncreasing(t);
    forall j | 0 <= j < |rest| ensures rest[j].weight <= t[0].weight {
      assert rest[j] in multiset(rest);
      if rest[j] != x {
        assert rest[j] in multiset(t[1..]);
        var k :| 0 <= k < |t[1..]| && t[1..][k] == rest[j];
      }
    }
  }

  lemma ConsNonIncreasing(h: Neighbour, rest: seq<Neighbour>)
    requires NonIncreasing(rest)
    requires forall j :: 0 <= j < |rest| ==> rest[j].weight <= h.weight
    ensures NonIncreasing([h] + rest)
  {
    var r := [h] + rest;
    assert forall i :: 1 <= i < |r| ==> r[i] == rest[i - 1];
  }

  /** Inserting `x` adds it at the front of its weight class and leaves every
      other class alone. */
  lemma {:induction false} InsertClass(x: Neighbour, t: seq<Neighbour>, v: real)
    requires NonIncreasing(t)
    ensures WithWeight(Insert(x, t), v)
            == if x.weight == v then [x] + WithWeight(t, v) else WithWeight(t, v)
    decreases |t|
  {
    var p := HasWeight(v);
    if t == [] {
      FilterCons(x, [], p);
    } else if t[0].weight <= x.weight {
      FilterCons(x, t, p);
    } else {
      TailNonIncreasing(t);
      InsertClass(x, t[1..], v);
      InsertDeep(x, t);
      ConsClass(t[0], Insert(x, t[1..]), t[1..], x, v);
      assert [t[0]] + t[1..] == t;
    }
  }

  /** Putting a neighbour heavier than `x` in front of both sides keeps the
      relation `InsertClass` states between a class with and without `x`. */
  lemma ConsClass(h: Neighbour, rest: seq<Neighbour>, tail: seq<Neighbour>, x: Neighbour, v: real)
    requires x.weight < h.weight
    requires WithWeight(rest, v) == if x.weight == v then [x] + WithWeight(tail, v) else WithWeight(tail, v)
    ensures WithWeight([h] + rest, v)
            == if x.weight == v then [x] + WithWeight([h] + tail, v) else WithWeight([h] + tail, v)
  {
    var p := HasWeight(v);
    FilterCons(h, rest, p);
    FilterCons(h, tail, p);
    if x.weight == v {
      assert !p(h);
    }
  }

  lemma InsertDeep(x: Neighbour, t: seq<Neighbour>)
    requires NonIncreasing(t) && |t| > 0 && x.weight < t[0].weight
    ensures NonIncreasing(t[1..])
    ensures Insert(x, t) == [t[0]] + Insert(x, t[1..])
  {
    TailNonIncreasing(t);
  }

  /** Insertion sort by descending weight. */
  function SortDesc(s: seq<Neighbour>): (r: seq<Neighbour>)
    ensures NonIncreasing(r)
    ensures multiset(r) == multiset(s)
    ensures |r| == |s|
  {
    if s == [] then []
    else
      assert s == [s[0]] + s[1..];
      Insert(s[0], SortDesc(s[1..]))
  }

  /** The sort is stable: each weight class comes out in input order. */
  lemma {:induction false} SortDescStable(s: seq<Neighbour>, v: real)
    ensures WithWeight(SortDesc(s), v) == WithWeight(s, v)
    decreases |s|
  {
    if s != [] {
      SortDescStable(s[1..], v);
      InsertClass(s[0], SortDesc(s[1..]), v);
      FilterCons(s[0], s[1..], HasWeight(v));
      assert [s[0]] + s[1..] == s;
    }
  }

  /** A sorted sequence with each weight class in input order is the sort's
      output: order and stability pin the result down uniquely. */
  lemma StableSortUnique(s: seq<Neighbour>, r: seq<Neighbour>)
    requires NonIncreasing(r)
    requires forall v :: WithWeight(r, v) == WithWeight(s, v)
    ensures r == SortDesc(s)
  {
    forall v ensures WithWeight(r, v) == WithWeight(SortDesc(s), v) {
      SortDescStable(s, v);
    }
    SortedClassesDetermine(r, SortDesc(s));
  }

  lemma WithWeightCons(a: seq<Neighbour>, v: real)
    requires a != []
    ensures WithWeight(a, v)
            == (if a[0].weight == v then [a[0]] else []) + WithWeight(a[1..], v)
  {
  }

  /** Sequences with the same weight classes share their maximal weight
      class's first element, when they are sorted. */
  lemma SameHead(a: seq<Neighbour>, b: seq<Neighbour>)
    requires a != [] && b != []
    requires NonIncreasing(a) && NonIncreasing(b)
    requires WithWeight(a, a[0].weight) == WithWeight(b, a[0].weight)
    requires WithWeight(a, b[0].weight) == WithWeight(b, b[0].weight)
    ensures a[0] == b[0]
  {
    var m := a[0].weight;
    WithWeightCons(a, m);
    WithWeightCons(b, b[0].weight);
    FilterMembers(a, HasWeight(b[0].weight));
    FilterMembers(b, HasWeight(m));
    assert b[0] in WithWeight(a, b[0].weight);
    var i :| 0 <= i < |a| && a[i] == b[0];
    assert a[0] in WithWeight(b, m);
    var j :| 0 <= j < |b| && b[j] == a[0];
    assert b[0].weight == m;
    WithWeightCons(b, m);
    assert WithWeight(a, m)[0] == a[0];
    assert WithWeight(b, m)[0] == b[0];
  }

  /** Removing equal heads keeps the weight classes equal. */
  lemma SameTailClass(a: seq<Neighbour>, b: seq<Neighbour>, v: real)
    requires a != [] && b != [] && a[0] == b[0]
    requires WithWeight(a, v) == WithWeight(b, v)
    ensures WithWeight(a[1..], v) == WithWeight(b[1..], v)
  {
    WithWeightCons(a, v);
    WithWeightCons(b, v);
    var x, y := WithWeight(a[1..], v), WithWeight(b[1..], v);
    if a[0].weight == v {
      assert WithWeight(a, v) == [a[0]] + x;
      assert WithWeight(b, v) == [b[0]] + y;
      assert x == ([a[0]] + x)[1..];
      assert y == ([b[0]] + y)[1..];
    } else {
      assert WithWeight(a, v) == x;
      assert WithWeight(b, v) == y;
    }
  }

  lemma HeadClassNonEmpty(a: seq<Neighbour>)
    requires a != []
    ensures exists v :: WithWeight(a, v) != []
  {
    assert a[0] in WithWeight(a, a[0].weight);
  }

  /** Two non-increasing sequences with the same weight classes are equal. */
  lemma {:induction false} SortedClassesDetermine(a: seq<Neighbour>, b: seq<Neighbour>)
    requires NonIncreasing(a) && NonIncreasing(b)
    requires forall v :: WithWeight(a, v) == WithWeight(b, v)
    ensures a == b
    decreases |a|
  {
    if a == [] && b == [] {
    } else if a == [] {
      HeadClassNonEmpty(b);
    } else if b == [] {
      HeadClassNonEmpty(a);
    } else {
      SameHead(a, b);
      forall v ensures WithWeight(a[1..], v) == WithWeight(b[1..], v) {
        SameTailClass(a, b, v);
      }
      SortedClassesDetermine(a[1..], b[1..]);
      assert a == [a[0]] + a[1..] && b == [b[0]] + b[1..];
    }
  }
}

=== FILE: pipeline.dfy ===
/** The backend's `/graph` payload fed to the frontend's layout and draw
    pass (backend/app/main.py, lines 54-78, with graph-visualization.tsx,
    lines 62-165): the query song is the centre, every recommended song sits
    on the neighbour ring, and every edge of the payload is drawn. */
module Pipeline {
  import opened Seqs
  import opened GraphTypes
  import opened RadialLayout
  import opened LayoutProperties
  import opened Renderer
  import opened RenderProperties
  import opened Recommend

  /** The payload's centre is the query song: the first node is the only
      one in the query group. */
  lemma PayloadCentreId(df: seq<Track>, sims: seq<real>, order: seq<int>, q: int, k: int)
    requires |sims| == |df| && IsArgsort(sims, order) && 0 <= q < |df|
    ensures var g := GraphPayload(df, sims, order, q, k);
            |g.nodes| > 0 && CentreId(g.nodes) == DecimalId(q)
  {
    var g := GraphPayload(df, sims, order, q, k);
    assert g.nodes[0].group == QueryGroup;
    assert CentreIndex(g.nodes) == 0;
  }

  /** The query song is drawn on the surface centre: the payload has no
      self-loop, since the selection never contains the query. */
  lemma PayloadQueryAtCentre(df: seq<Track>, sims: seq<real>, order: seq<int>, q: int, k: int,
                             width: real, height: real)
    requires |sims| == |df| && IsArgsort(sims, order) && 0 <= q < |df|
    ensures var g := GraphPayload(df, sims, order, q, k);
            var pos := Layout(g, width, height);
            DecimalId(q) in pos && pos[DecimalId(q)] == Centre
  {
    var g := GraphPayload(df, sims, order, q, k);
    PayloadCentreId(df, sims, order, q, k);
    var c := CentreId(g.nodes);
    LayoutCentre(g, width, height);
    forall e | e in g.edges ensures !(e.from == c && e.to == c) {
      var i :| 0 <= i < |g.edges| && g.edges[i] == e;
      assert e.to == g.nodes[i + 1].id != g.nodes[0].id;
    }
  }

  /** The neighbours the layout ranks are the payload's edges' targets, so
      every recommended song is one of them. */
  lemma PayloadNeighbours(df: seq<Track>, sims: seq<real>, order: seq<int>, q: int, k: int, i: nat)
    requires |sims| == |df| && IsArgsort(sims, order) && 0 <= q < |df|
    requires 1 <= i < |GraphPayload(df, sims, order, q, k).nodes|
    ensures var g := GraphPayload(df, sims, order, q, k);
            |g.nodes| > 0 && g.nodes[i].id in NeighbourIds(Neighbours(g.edges, CentreId(g.nodes)))
  {
    var g := GraphPayload(df, sims, order, q, k);
    PayloadCentreId(df, sims, order, q, k);
    var c := CentreId(g.nodes);
    assert forall j :: 0 <= j < |g.edges| ==> g.edges[j].from == c;
    NeighboursOfOutgoing(g.edges, c);
    var nbs := Neighbours(g.edges, c);
    assert nbs[i - 1].id == g.edges[i - 1].to == g.nodes[i].id;
  }

  /** Every recommended song sits on the neighbour ring, between 65% and
      100% of the ring radius. */
  lemma PayloadRecommendedOnRing(df: seq<Track>, sims: seq<real>, order: seq<int>, q: int, k: int,
                                 width: real, height: real, i: nat)
    requires |sims| == |df| && IsArgsort(sims, order) && 0 <= q < |df|
    requires width >= 0.0 && height >= 0.0
    requires 1 <= i < |GraphPayload(df, sims, order, q, k).nodes|
    ensures var g := GraphPayload(df, sims, order, q, k);
            var pos := Layout(g, width, height);
            var ring := RingRadius(width, height);
            g.nodes[i].id in pos && pos[g.nodes[i].id].Polar?
            && 0.65 * ring <= pos[g.nodes[i].id].radius <= ring
  {
    var g := GraphPayload(df, sims, order, q, k);
    PayloadNeighbours(df, sims, order, q, k, i);
    LayoutNeighbourRadius(g, width, height, g.nodes[i].id);
  }

  /** Every edge of the payload is drawn: the frame holds the background,
      one line per edge and four glyph operations per node. */
  lemma PayloadFrameSize(df: seq<Track>, sims: seq<real>, order: seq<int>, q: int, k: int,
                         width: real, height: real, theme: Theme, trig: Trig)
    requires |sims| == |df| && IsArgsort(sims, order) && 0 <= q < |df|
    ensures var g := GraphPayload(df, sims, order, q, k);
            |Frame(g, width, height, theme, trig)| == 1 + |g.edges| + 4 * |g.nodes|
  {
    var g := GraphPayload(df, sims, order, q, k);
    var pos := Layout(g, width, height);
    forall j | 0 <= j < |g.edges| ensures Drawable(g.edges[j], pos) {
      assert g.edges[j].from == g.nodes[0].id;
      assert g.edges[j].to == g.nodes[j + 1].id;
    }
    FilterKeepsAll(g.edges, (e: Edge) => Drawable(e, pos));
    FrameDrawsEveryNode(g, width, height, theme, trig);
  }
}

=== FILE: recommend.dfy ===
/** The backend's neighbour selection and graph payload
    (backend/app/main.py, lines 25-78). The similarity vector and its
    ascending ranking (`sims.argsort()`) are inputs; how they are computed is
    not modelled. */
module Recommend {
  import opened Wrappers
  import opened Seqs
  import opened GraphTypes

  /** One row of the song table, as far as the endpoints read it. */
  datatype Track = Track(name: string, artist: string)

  const InvalidIndexMessage: string := "Invalid song_index"
  const RecommendedGroup: string := "recommended"

  /** How an out-of-range `/graph` request ends: an unhandled `IndexError`
      (a server error rather than an error record). */
  const IndexErrorMessage: string := "IndexError"

  // --------------------------------------------------------------- slicing

  /** Python's clipping of a slice bound `i` against a length: a negative
      bound counts from the end, and the result is clamped to `0..len`. */
  function SliceBound(len: nat, i: int): (r: nat)
    ensures r <= len
    ensures 0 <= i <= len ==> r == i
    ensures -(len as int) <= i < 0 ==> r == len + i
    ensures i > len ==> r == len
    ensures i < -(len as int) ==> r == 0
  {
    if i < 0 then (if len + i < 0 then 0 else len + i)
    else if i > len then len
    else i
  }

  /** `s[start:]`. */
  function PyFrom<T>(s: seq<T>, start: int): seq<T> {
    s[SliceBound(|s|, start)..]
  }

  /** `s[:stop]`. */
  function PyTo<T>(s: seq<T>, stop: int): seq<T> {
    s[..SliceBound(|s|, stop)]
  }

  // --------------------------------------------------------------- ranking

  /** Every element is an index into a sequence of length `n`. */
  predicate InRange(s: seq<int>, n: nat) {
    forall i :: 0 <= i < |s| ==> 0 <= s[i] < n
  }

  /** `order` is a possible result of `sims.argsort()`: a permutation of the
      indices of `sims` listing the similarities in ascending order. */
  predicate IsArgsort(sims: seq<real>, order: seq<int>) {
    && |order| == |sims|
    && InRange(order, |sims|)
    && Distinct(order)
    && forall i, j :: 0 <= i < j < |order| ==> sims[order[i]] <= sims[order[j]]
  }

  /** The similarities of the indices in `s` never increase. */
  predicate Descending(sims: seq<real>, s: seq<int>)
    requires InRange(s, |sims|)
  {
    forall i, j :: 0 <= i < j < |s| ==> sims[s[i]] >= sims[s[j]]
  }

  /** `argsort()[-(k + 1):][::-1]`, then every index but the query's, then
      the first `k` of those. */
  function TopNeighbours(sims: seq<real>, order: seq<int>, q: int, k: int): (top: seq<int>)
    requires IsArgsort(sims, order)
    ensures InRange(top, |sims|)
    ensures Distinct(top)
    ensures forall i :: 0 <= i < |top| ==> top[i] != q
    ensures Descending(sims, top)
    ensures 0 <= q < |sims| && k >= 0 ==> |top| == if k < |sims| - 1 then k else |sims| - 1
    ensures Maximal(sims, top, q)
  {
    var tail := PyFrom(order, -(k + 1));
    var ranked := Reverse(tail);
    var others := Without(ranked, q);
    SuffixFacts(sims, order, SliceBound(|order|, -(k + 1)));
    ReverseFacts(sims, tail);
    FilterFacts(sims, ranked, NotEqual(q));
    FilterDistinct(ranked, NotEqual(q));
    FilterMembers(ranked, NotEqual(q));
    PrefixFacts(sims, others, SliceBound(|others|, k));
    TopIsMaximal(sims, order, q, k);
    if 0 <= q < |sims| && k >= 0 then
      CountTop(sims, order, q, k);
      PyTo(others, k)
    else
      PyTo(others, k)
  }

  /** No song outside the selection, other than the query, is more similar
      than any selected song: the selection is a top-`k`. */
  predicate Maximal(sims: seq<real>, top: seq<int>, q: int)
    requires InRange(top, |sims|)
  {
    forall j, i :: 0 <= j < |sims| && j != q && j !in top && 0 <= i < |top| ==> sims[j] <= sims[top[i]]
  }

  /** The cut of the ranking is maximal. A left-out index either lies below
      the `k + 1` best of the argsort, and so is no more similar than any of
      them, or it survived the query filter but fell after the first `k`, and
      the filtered ranking is descending. */
  lemma TopIsMaximal(sims: seq<real>, order: seq<int>, q: int, k: int)
    requires IsArgsort(sims, order)
    ensures var others := Without(Reverse(PyFrom(order, -(k + 1))), q);
            var top := PyTo(others, k);
            InRange(top, |sims|) && Maximal(sims, top, q)
  {
    var from := SliceBound(|order|, -(k + 1));
    var tail := order[from..];
    var ranked := Reverse(tail);
    var others := Without(ranked, q);
    var top := PyTo(others, k);
    SuffixFacts(sims, order, from);
    ReverseFacts(sims, tail);
    FilterFacts(sims, ranked, NotEqual(q));
    FilterMembers(ranked, NotEqual(q));
    forall j, i | 0 <= j < |sims| && j != q && j !in top && 0 <= i < |top|
      ensures sims[j] <= sims[top[i]]
    {
      assert top[i] == others[i];
      if j in tail {
        InReverse(tail, j);
        assert NotEqual(q)(j);
        CutIsMaximal(sims, others, SliceBound(|others|, k), j);
      } else {
        InReverse(tail, top[i]);
        BelowTail(sims, order, from, j);
      }
    }
  }

  /** An element of a descending ranking left out of its first `m` entries
      is no more similar than any of them. */
  lemma CutIsMaximal(sims: seq<real>, s: seq<int>, m: nat, j: int)
    requires InRange(s, |sims|) && Descending(sims, s) && m <= |s|
    requires j in s && j !in s[..m]
    ensures forall i :: 0 <= i < m ==> sims[j] <= sims[s[i]]
  {
    assert forall i :: 0 <= i < m ==> s[..m][i] == s[i];
    var p :| 0 <= p < |s| && s[p] == j;
  }

  /** An index outside a suffix of the argsort is no more similar than
      anything in that suffix. */
  lemma BelowTail(sims: seq<real>, order: seq<int>, from: nat, j: int)
    requires IsArgsort(sims, order) && from <= |order|
    requires 0 <= j < |sims| && j !in order[from..]
    ensures forall b :: from <= b < |order| ==> sims[j] <= sims[order[b]]
  {
    PermutationCovers(order, |sims|);
    assert forall b :: from <= b < |order| ==> order[from..][b - from] == order[b];
    assert j in order;
    var a :| 0 <= a < |order| && order[a] == j;
  }

  /** Membership survives reversal, in both directions. */
  lemma InReverse<T>(s: seq<T>, x: T)
    ensures x in Reverse(s) <==> x in s
  {
    var r := Reverse(s);
    if x in s {
      var p :| 0 <= p < |s| && s[p] == x;
      assert r[|s| - 1 - p] == x;
    }
    if x in r {
      var p :| 0 <= p < |r| && r[p] == x;
      assert s[|s| - 1 - p] == x;
    }
  }

  /** A suffix of an ascending ranking keeps its properties. */
  lemma SuffixFacts(sims: seq<real>, order: seq<int>, from: nat)
    requires IsArgsort(sims, order) && from <= |order|
    ensures InRange(order[from..], |sims|) && Distinct(order[from..])
    ensures forall i, j :: 0 <= i < j < |order[from..]| ==> sims[order[from..][i]] <= sims[order[from..][j]]
  {
    var t := order[from..];
    assert forall i :: 0 <= i < |t| ==> t[i] == order[from + i];
  }

  /** Reversing an ascending, duplicate-free index sequence gives a
      descending, duplicate-free one. */
  lemma ReverseFacts(sims: seq<real>, s: seq<int>)
    requires InRange(s, |sims|) && Distinct(s)
    requires forall i, j :: 0 <= i < j < |s| ==> sims[s[i]] <= sims[s[j]]
    ensures InRange(Reverse(s), |sims|) && Distinct(Reverse(s)) && Descending(sims, Reverse(s))
  {
    var r := Reverse(s);
    assert forall i :: 0 <= i < |r| ==> r[i] == s[|s| - 1 - i];
  }

  /** Filtering keeps indices in range and in descending order. */
  lemma {:induction false} FilterFacts(sims: seq<real>, s: seq<int>, p: int -> bool)
    requires InRange(s, |sims|) && Descending(sims, s)
    ensures InRange(Filter(s, p), |sims|) && Descending(sims, Filter(s, p))
    decreases |s|
  {
    if s != [] {
      TailFacts(sims, s);
      FilterFacts(sims, s[1..], p);
      var rest := Filter(s[1..], p);
      if p(s[0]) {
        FilterMembers(s[1..], p);
        forall j | 0 <= j < |rest| ensures sims[s[0]] >= sims[rest[j]] {
          HeadDominates(sims, s, rest[j]);
        }
        ConsFacts(sims, s[0], rest);
        assert Filter(s, p) == [s[0]] + rest;
      } else {
        assert Filter(s, p) == rest;
      }
    }
  }

  lemma TailFacts(sims: seq<real>, s: seq<int>)
    requires InRange(s, |sims|) && Descending(sims, s) && |s| > 0
    ensures InRange(s[1..], |sims|) && Descending(sims, s[1..])
  {
    assert forall i :: 0 <= i < |s[1..]| ==> s[1..][i] == s[i + 1];
  }

  /** In a descending ranking nothing in the tail beats the head. */
  lemma HeadDominates(sims: seq<real>, s: seq<int>, v: int)
    requires InRange(s, |sims|) && Descending(sims, s) && |s| > 0 && v in s[1..]
    ensures 0 <= v < |sims| && sims[s[0]] >= sims[v]
  {
    var m :| 0 <= m < |s[1..]| && s[1..][m] == v;
    assert s[m + 1] == v;
  }

  lemma ConsFacts(sims: seq<real>, x: int, rest: seq<int>)
    requires 0 <= x < |sims| && InRange(rest, |sims|) && Descending(sims, rest)
    requires forall j :: 0 <= j < |rest| ==> sims[x] >= sims[rest[j]]
    ensures InRange([x] + rest, |sims|) && Descending(sims, [x] + rest)
  {
    var r := [x] + rest;
    assert forall i :: 1 <= i < |r| ==> r[i] == rest[i - 1];
  }

  /** A prefix keeps every property. */
  lemma PrefixFacts(sims: seq<real>, s: seq<int>, upTo: nat)
    requires InRange(s, |sims|) && Distinct(s) && Descending(sims, s) && upTo <= |s|
    ensures InRange(s[..upTo], |sims|) && Distinct(s[..upTo]) && Descending(sims, s[..upTo])
  {
  }

  /** With a valid query and `k >= 0` the selection has `min(k, N - 1)`
      entries: the `k + 1` best minus the query when it is among them, and
      when `k + 1` reaches `N` the whole permutation minus the query. */
  lemma CountTop(sims: seq<real>, order: seq<int>, q: int, k: int)
    requires IsArgsort(sims, order) && 0 <= q < |sims| && k >= 0
    ensures var others := Without(Reverse(PyFrom(order, -(k + 1))), q);
            |PyTo(others, k)| == if k < |sims| - 1 then k else |sims| - 1
  {
    var n := |sims|;
    var from := SliceBound(n, -(k + 1));
    var tail := order[from..];
    if k + 1 >= n {
      assert from == 0 && tail == order;
      WholeRankingCount(sims, order, q);
    } else {
      WithoutCount(Reverse(tail), q);
      assert |tail| == k + 1;
    }
  }

  /** The whole permutation, reversed, minus the query has `N - 1` entries:
      the query occurs in it exactly once. */
  lemma WholeRankingCount(sims: seq<real>, order: seq<int>, q: int)
    requires IsArgsort(sims, order) && 0 <= q < |sims|
    ensures |Without(Reverse(order), q)| == |sims| - 1
  {
    var n := |sims|;
    var ranked := Reverse(order);
    ReverseFacts(sims, order);
    WithoutCount(ranked, q);
    PermutationCovers(order, n);
    assert q in order;
    var m :| 0 <= m < n && order[m] == q;
    assert ranked[n - 1 - m] == q;
  }

  // ------------------------------------------------------------- endpoints

  /** `GET /recommend`: an error record for an out-of-range index, checked
      before any ranking, else the selected tracks in ranking order. */
  function Recommend(df: seq<Track>, sims: seq<real>, order: seq<int>, q: int, k: int)
    : (r: Result<seq<Track>, string>)
    requires |sims| == |df| && IsArgsort(sims, order)
    ensures r.Failure? <==> q < 0 || q >= |df|
    ensures r.Failure? ==> r.error == InvalidIndexMessage
    ensures r.Success? && k >= 0 ==> |r.value| == if k < |df| - 1 then k else |df| - 1
    ensures r.Success? ==> var top := TopNeighbours(sims, order, q, k);
              |r.value| == |top| && forall i :: 0 <= i < |top| ==> r.value[i] == df[top[i]]
  {
    if q < 0 || q >= |df| then Failure(InvalidIndexMessage)
    else
      var top := TopNeighbours(sims, order, q, k);
      var tracks := seq(|top|, i requires 0 <= i < |top| => df[top[i]]);
      Success(tracks)
  }

  /** Edge `i` joins the first node to node `i + 1`. */
  predicate IsStar(g: GraphData) {
    |g.nodes| == |g.edges| + 1
    && forall i :: 0 <= i < |g.edges| ==>
         g.edges[i].from == g.nodes[0].id && g.edges[i].to == g.nodes[i + 1].id
  }

  /** Every edge carries a weight and the weights never increase. */
  predicate WeightsNonIncreasing(edges: seq<Edge>) {
    forall i, j :: 0 <= i < j < |edges| ==>
      edges[i].weight.Some? && edges[j].weight.Some?
      && edges[i].weight.value >= edges[j].weight.value
  }

  predicate IdsDistinct(nodes: seq<Node>) {
    forall i, j :: 0 <= i < j < |nodes| ==> nodes[i].id != nodes[j].id
  }

  /** `GET /graph` as written, without an index check. An index in
      `-N .. -1` reads row `q + N`, as Python indexing wraps, but the
      selection still filters on the raw index, so that row is not excluded
      from its own recommendations; an index outside `-N .. N - 1` raises. */
  function GraphAsWritten(df: seq<Track>, sims: seq<real>, order: seq<int>, q: int, k: int)
    : (r: Result<GraphData, string>)
    requires |sims| == |df| && IsArgsort(sims, order)
    ensures r.Failure? <==> q < -|df| || q >= |df|
    ensures r.Failure? ==> r.error == IndexErrorMessage
    ensures 0 <= q < |df| ==> r == Success(GraphPayload(df, sims, order, q, k))
  {
    if q < -|df| || q >= |df| then Failure(IndexErrorMessage)
    else
      var row := if q < 0 then q + |df| else q;
      var top := TopNeighbours(sims, order, q, k);
      var nodes := [Node(SignedId(q), df[row].name, QueryGroup)] + RecommendedNodes(df, top);
      Success(GraphData(nodes, QueryEdges(sims, SignedId(q), top)))
  }

  /** Two songs, the first most similar to itself: asking `/graph` for
      index `-2` reads song 0 and then recommends song 0 to itself. */
  lemma NegativeIndexRecommendsItself()
    ensures var df := [Track("A", "X"), Track("B", "Y")];
            var r := GraphAsWritten(df, [1.0, 0.5], [1, 0], -2, 1);
            r.Success? && |r.value.nodes| == 2
            && r.value.nodes[0].caption == r.value.nodes[1].caption == "A"
            && r.value.nodes[1].id == DecimalId(0)
  {
    var df := [Track("A", "X"), Track("B", "Y")];
    var sims, order := [1.0, 0.5], [1, 0];
    NegativeIndexSelection();
    var top := TopNeighbours(sims, order, -2, 1);
    var r := GraphAsWritten(df, sims, order, -2, 1);
    assert r.value.nodes == [Node(SignedId(-2), "A", QueryGroup)] + RecommendedNodes(df, top);
  }

  /** In the example above the ranking keeps song 0, because the filter
      compares against `-2` rather than the row it read. */
  lemma NegativeIndexSelection()
    ensures TopNeighbours([1.0, 0.5], [1, 0], -2, 1) == [0]
  {
    NegativeIndexRanking();
    assert PyTo([0, 1], 1) == [0];
  }

  /** The ranking step of the example: every song survives the filter. */
  lemma NegativeIndexRanking()
    ensures Without(Reverse(PyFrom([1, 0], -2)), -2) == [0, 1]
  {
    var order := [1, 0];
    assert PyFrom(order, -2) == order;
    ReversePair();
    FilterKeepsAll([0, 1], NotEqual(-2));
  }

  lemma ReversePair()
    ensures Reverse([1, 0]) == [0, 1]
  {
    var r := Reverse([1, 0]);
    assert r[0] == 0 && r[1] == 1;
  }

  /** `GET /graph` with the index check `/recommend` applies: the error
      record for an out-of-range index, else the payload, in which no
      recommended node is the query song. */
  function Graph(df: seq<Track>, sims: seq<real>, order: seq<int>, q: int, k: int)
    : (r: Result<GraphData, string>)
    requires |sims| == |df| && IsArgsort(sims, order)
    ensures r.Failure? <==> q < 0 || q >= |df|
    ensures r.Failure? ==> r.error == InvalidIndexMessage
    ensures r.Success? ==> |r.value.nodes| > 0 && r.value.nodes[0].id == DecimalId(q)
    ensures r.Success? ==>
              forall i :: 1 <= i < |r.value.nodes| ==> r.value.nodes[i].id != DecimalId(q)
    ensures r.Success? ==> r.value == GraphPayload(df, sims, order, q, k)
  {
    if q < 0 || q >= |df| then Failure(InvalidIndexMessage)
    else Success(GraphPayload(df, sims, order, q, k))
  }

  /** The payload: the query node, one recommended node per selected index,
      and one edge from the query to each of them weighted by similarity. */
  function GraphPayload(df: seq<Track>, sims: seq<real>, order: seq<int>, q: int, k: int)
    : (g: GraphData)
    requires |sims| == |df| && IsArgsort(sims, order) && 0 <= q < |df|
    ensures k >= 0 ==> |g.edges| == if k < |df| - 1 then k else |df| - 1
    ensures IsStar(g)
    ensures g.nodes[0] == Node(DecimalId(q), df[q].name, QueryGroup)
    ensures forall i :: 1 <= i < |g.nodes| ==> g.nodes[i].group == RecommendedGroup
    ensures WeightsNonIncreasing(g.edges)
    ensures IdsDistinct(g.nodes)
    ensures PayloadFor(df, sims, q, TopNeighbours(sims, order, q, k), g)
  {
    var top := TopNeighbours(sims, order, q, k);
    var nodes := [Node(DecimalId(q), df[q].name, QueryGroup)] + RecommendedNodes(df, top);
    var edges := QueryEdges(sims, DecimalId(q), top);
    PayloadSelection(df, sims, q, top);
    PayloadIdsDistinct(df, q, top);
    EdgeWeightsDescending(sims, DecimalId(q), top);
    PayloadLinks(df, sims, q, top);
    GraphData(nodes, edges)
  }

  /** `g` carries the selection `top`: node `i + 1` is song `top[i]` with its
      name, and edge `i` runs from the query to it, weighted by its
      similarity. */
  predicate PayloadFor(df: seq<Track>, sims: seq<real>, q: nat, top: seq<int>, g: GraphData)
    requires q < |df| == |sims| && InRange(top, |df|)
  {
    && |g.nodes| == |top| + 1
    && |g.edges| == |top|
    && forall i :: 0 <= i < |top| ==>
         g.nodes[i + 1] == Node(DecimalId(top[i]), df[top[i]].name, RecommendedGroup)
         && g.edges[i] == Edge(DecimalId(q), DecimalId(top[i]), Some(sims[top[i]]))
  }

  /** The payload built for `top` carries exactly that selection. */
  lemma PayloadSelection(df: seq<Track>, sims: seq<real>, q: nat, top: seq<int>)
    requires q < |df| == |sims| && InRange(top, |df|)
    ensures PayloadFor(df, sims, q, top,
                       GraphData([Node(DecimalId(q), df[q].name, QueryGroup)] + RecommendedNodes(df, top),
                                 QueryEdges(sims, DecimalId(q), top)))
  {
    var recs := RecommendedNodes(df, top);
    var nodes := [Node(DecimalId(q), df[q].name, QueryGroup)] + recs;
    forall i | 0 <= i < |top|
      ensures nodes[i + 1] == Node(DecimalId(top[i]), df[top[i]].name, RecommendedGroup)
    {
      assert nodes[i + 1] == recs[i];
    }
  }

  /** Edge `i` joins the query node to node `i + 1`. */
  lemma PayloadLinks(df: seq<Track>, sims: seq<real>, q: nat, top: seq<int>)
    requires q < |df| == |sims| && InRange(top, |df|)
    ensures IsStar(GraphData([Node(DecimalId(q), df[q].name, QueryGroup)] + RecommendedNodes(df, top),
                             QueryEdges(sims, DecimalId(q), top)))
  {
    var recs := RecommendedNodes(df, top);
    var nodes := [Node(DecimalId(q), df[q].name, QueryGroup)] + recs;
    var edges := QueryEdges(sims, DecimalId(q), top);
    forall i | 0 <= i < |edges| ensures edges[i].from == nodes[0].id && edges[i].to == nodes[i + 1].id {
      assert nodes[i + 1] == recs[i];
    }
  }

  /** Edge weights follow the selection's similarity order. */
  lemma EdgeWeightsDescending(sims: seq<real>, from: string, top: seq<int>)
    requires InRange(top, |sims|) && Descending(sims, top)
    ensures WeightsNonIncreasing(QueryEdges(sims, from, top))
  {
  }

  function RecommendedNodes(df: seq<Track>, top: seq<int>): (ns: seq<Node>)
    requires InRange(top, |df|)
    ensures |ns| == |top|
    ensures forall i :: 0 <= i < |top| ==>
              ns[i] == Node(DecimalId(top[i]), df[top[i]].name, RecommendedGroup)
  {
    seq(|top|, i requires 0 <= i < |top| => Node(DecimalId(top[i]), df[top[i]].name, RecommendedGroup))
  }

  function QueryEdges(sims: seq<real>, from: string, top: seq<int>): (es: seq<Edge>)
    requires InRange(top, |sims|)
    ensures |es| == |top|
    ensures forall i :: 0 <= i < |top| ==>
              es[i] == Edge(from, DecimalId(top[i]), Some(sims[top[i]]))
  {
    seq(|top|, i requires 0 <= i < |top| => Edge(from, DecimalId(top[i]), Some(sims[top[i]])))
  }

  /** The query's id and the selected ids are pairwise different strings. */
  lemma PayloadIdsDistinct(df: seq<Track>, q: nat, top: seq<int>)
    requires q < |df| && InRange(top, |df|) && Distinct(top)
    requires forall i :: 0 <= i < |top| ==> top[i] != q
    ensures IdsDistinct([Node(DecimalId(q), df[q].name, QueryGroup)] + RecommendedNodes(df, top))
  {
    var nodes := [Node(DecimalId(q), df[q].name, QueryGroup)] + RecommendedNodes(df, top);
    forall i, j | 0 <= i < j < |nodes| ensures nodes[i].id != nodes[j].id {
      if nodes[i].id == nodes[j].id {
        if i == 0 {
          DecimalIdInjective(q, top[j - 1]);
        } else {
          DecimalIdInjective(top[i - 1], top[j - 1]);
        }
      }
    }
  }

  /** Both endpoints select the same songs in the same order: track `i` of
      `/recommend` is song `top[i]`, and so is recommended node `i + 1` of
      `/graph`, which carries that song's id and name. */
  lemma RecommendMatchesGraph(df: seq<Track>, sims: seq<real>, order: seq<int>, q: int, k: int)
    requires |sims| == |df| && IsArgsort(sims, order) && 0 <= q < |df|
    ensures var r := Recommend(df, sims, order, q, k);
            var g := GraphPayload(df, sims, order, q, k);
            var top := TopNeighbours(sims, order, q, k);
            r.Success? && |r.value| == |top| == |g.nodes| - 1
            && forall i :: 0 <= i < |top| ==>
                 r.value[i] == df[top[i]]
                 && g.nodes[i + 1].id == DecimalId(top[i])
                 && r.value[i].name == g.nodes[i + 1].caption
  {
    var top := TopNeighbours(sims, order, q, k);
    var tracks := Recommend(df, sims, order, q, k).value;
    var nodes := GraphPayload(df, sims, order, q, k).nodes;
    assert nodes == [Node(DecimalId(q), df[q].name, QueryGroup)] + RecommendedNodes(df, top);
    SameSelection(df, top, tracks, nodes, Node(DecimalId(q), df[q].name, QueryGroup));
  }

  /** The tracks picked for `top` and the nodes built for it are the same
      songs, one position apart: node `i + 1` has song `top[i]`'s id and
      track `i`'s name. */
  lemma SameSelection(df: seq<Track>, top: seq<int>, tracks: seq<Track>, nodes: seq<Node>, query: Node)
    requires InRange(top, |df|)
    requires |tracks| == |top| && forall i :: 0 <= i < |top| ==> tracks[i] == df[top[i]]
    requires nodes == [query] + RecommendedNodes(df, top)
    ensures |tracks| == |nodes| - 1
    ensures forall i :: 0 <= i < |tracks| ==>
              nodes[i + 1].id == DecimalId(top[i]) && tracks[i].name == nodes[i + 1].caption
  {
    var recs := RecommendedNodes(df, top);
    forall i | 0 <= i < |tracks|
      ensures nodes[i + 1].id == DecimalId(top[i]) && tracks[i].name == nodes[i + 1].caption
    {
      assert nodes[i + 1] == recs[i];
    }
  }
}

=== FILE: render.dfy ===
/** The drawing pass of the graph view (graph-visualization.tsx, lines
    112-165) as the ordered sequence of canvas operations it issues, and the
    choice between spinner, placeholder and canvas (lines 35-36, 166-201).

    Cosine and sine are not modelled: the caller supplies them, as functions
    of an angle measured in full turns, through `Trig`. */
module Renderer {
  import opened Wrappers
  import opened Seqs
  import opened GraphTypes
  import opened RadialLayout

  /** The page theme (the `dark` class on the document element). */
  datatype Theme = Light | Dark

  datatype Point = Point(x: real, y: real)

  /** Cosine and sine of an angle given in full turns. */
  datatype Trig = Trig(cosTurn: real -> real, sinTurn: real -> real)

  /** One canvas operation. */
  datatype DrawOp =
    | FillRect(colour: string, x: real, y: real, width: real, height: real)
    | Line(start: Point, end: Point, colour: string, lineWidth: real)
    | Glow(centre: Point, radius: real, innerColour: string)
    | Disc(centre: Point, radius: real, colour: string)
    | Outline(centre: Point, radius: real, colour: string, lineWidth: real)
    | Text(text: string, at: Point, colour: string)

  // --------------------------------------------------------------- colours

  function Opposite(t: Theme): Theme {
    if t == Dark then Light else Dark
  }

  function BackgroundColour(t: Theme): string {
    if t == Dark then "#1A130E" else "#F9F7F4"
  }

  /** Borders and labels use the other theme's background for contrast. */
  function ForegroundColour(t: Theme): (c: string)
    ensures c == BackgroundColour(Opposite(t))
    ensures c != BackgroundColour(t)
  {
    if t == Dark then "#F9F7F4" else "#1A130E"
  }

  function EdgeColour(t: Theme): string {
    if t == Dark then "rgba(255, 255, 255, 0.12)" else "rgba(0, 0, 0, 0.08)"
  }

  const EdgeWidth: real := 1.2
  const BorderWidth: real := 1.0

  // ----------------------------------------------------------- coordinates

  /** The Cartesian point of a placement on a `width` x `height` surface. */
  function ToPoint(p: Placement, width: real, height: real, trig: Trig): (pt: Point)
    ensures p == Centre ==> pt == Point(width / 2.0, height / 2.0)
    ensures p.Polar? && p.radius == 0.0 ==> pt == Point(width / 2.0, height / 2.0)
  {
    match p
    case Centre => Point(width / 2.0, height / 2.0)
    case Polar(turn, radius) =>
      Point(width / 2.0 + trig.cosTurn(turn) * radius,
            height / 2.0 + trig.sinTurn(turn) * radius)
  }

  // ----------------------------------------------------------------- edges

  /** Both endpoints of the edge have a position. */
  predicate Drawable(e: Edge, pos: Positions) {
    e.from in pos && e.to in pos
  }

  function EdgeLine(e: Edge, pos: Positions, width: real, height: real, theme: Theme, trig: Trig): DrawOp
    requires Drawable(e, pos)
  {
    Line(ToPoint(pos[e.from], width, height, trig), ToPoint(pos[e.to], width, height, trig),
         EdgeColour(theme), EdgeWidth)
  }

  /** One line per edge whose endpoints are both positioned, in edge order. */
  function EdgeOps(edges: seq<Edge>, pos: Positions, width: real, height: real,
                   theme: Theme, trig: Trig): (r: seq<DrawOp>)
    ensures |r| == |Filter(edges, (e: Edge) => Drawable(e, pos))|
    ensures forall i :: 0 <= i < |r| ==>
              r[i].Line? && r[i].colour == EdgeColour(theme) && r[i].lineWidth == EdgeWidth
    ensures forall i :: 0 <= i < |edges| && Drawable(edges[i], pos) ==>
              EdgeLine(edges[i], pos, width, height, theme, trig) in r
  {
    if edges == [] then []
    else
      var rest := EdgeOps(edges[1..], pos, width, height, theme, trig);
      assert forall i :: 1 <= i < |edges| ==> edges[i] == edges[1..][i - 1];
      (if Drawable(edges[0], pos) then [EdgeLine(edges[0], pos, width, height, theme, trig)] else [])
      + rest
  }

  // ----------------------------------------------------------------- nodes

  /** The label as drawn: cut to 25 characters plus "..." when longer than 28. */
  function DisplayLabel(s: string): (r: string)
    ensures |r| <= 28
    ensures r == s <==> |s| <= 28
    ensures |s| > 28 ==> |r| == 28 && r[..25] == s[..25] && r[25..] == "..."
  {
    if |s| > 28 then s[..25] + "..." else s
  }

  predicate IsQuery(nd: Node) {
    nd.group == QueryGroup
  }

  /** The glyph radius: 8 for a query node, 6 for any other. */
  function GlyphRadius(nd: Node): (r: real)
    ensures r == 8.0 <==> IsQuery(nd)
    ensures r == 6.0 <==> !IsQuery(nd)
  {
    if IsQuery(nd) then 8.0 else 6.0
  }

  function GlowColour(nd: Node): string {
    if IsQuery(nd) then "rgba(120,100,50,0.28)" else "rgba(120,100,50,0.08)"
  }

  function FillColour(nd: Node): string {
    if IsQuery(nd) then "#78643C" else "#6B5B46"
  }

  /** The four operations drawing one node at `at`: glow, filled circle,
      border, label. */
  function GlyphOps(nd: Node, at: Point, theme: Theme): (ops: seq<DrawOp>)
    ensures |ops| == 4
    ensures ops[0].Glow? && ops[1].Disc? && ops[2].Outline? && ops[3].Text?
    ensures ops[0].centre == at && ops[1].centre == at && ops[2].centre == at
    ensures ops[1].radius == GlyphRadius(nd) && ops[2].radius == ops[1].radius
    ensures ops[0].radius == 3.0 * ops[1].radius
    ensures ops[0].innerColour
            == (if nd.group == QueryGroup then "rgba(120,100,50,0.28)" else "rgba(120,100,50,0.08)")
    ensures ops[1].colour == (if nd.group == QueryGroup then "#78643C" else "#6B5B46")
    ensures ops[2].lineWidth == 1.0
    ensures ops[2].colour == ForegroundColour(theme) && ops[3].colour == ForegroundColour(theme)
    ensures ops[3].text == DisplayLabel(nd.caption)
    ensures ops[3].at == Point(at.x + ops[1].radius + 6.0, at.y)
  {
    var radius := GlyphRadius(nd);
    [ Glow(at, radius * 3.0, GlowColour(nd)),
      Disc(at, radius, FillColour(nd)),
      Outline(at, radius, ForegroundColour(theme), BorderWidth),
      Text(DisplayLabel(nd.caption), Point(at.x + radius + 6.0, at.y), ForegroundColour(theme)) ]
  }

  /** The glyphs of every positioned node, in node order; a node without a
      position draws nothing. */
  function NodeOps(nodes: seq<Node>, pos: Positions, width: real, height: real,
                   theme: Theme, trig: Trig): (r: seq<DrawOp>)
    ensures |r| == 4 * |Filter(nodes, (nd: Node) => nd.id in pos)|
    ensures forall i :: 0 <= i < |r| ==> !r[i].Line? && !r[i].FillRect?
  {
    if nodes == [] then []
    else
      var nd := nodes[0];
      (if nd.id in pos then GlyphOps(nd, ToPoint(pos[nd.id], width, height, trig), theme) else [])
      + NodeOps(nodes[1..], pos, width, height, theme, trig)
  }

  // ----------------------------------------------------------------- frame

  /** The whole draw pass: background, then edges, then nodes. */
  function Render(g: GraphData, pos: Positions, width: real, height: real,
                  theme: Theme, trig: Trig): (ops: seq<DrawOp>)
    ensures var lines := |Filter(g.edges, (e: Edge) => Drawable(e, pos))|;
            && |ops| == 1 + lines + 4 * |Filter(g.nodes, (nd: Node) => nd.id in pos)|
            && ops[0] == FillRect(BackgroundColour(theme), 0.0, 0.0, width, height)
            && (forall i :: 1 <= i <= lines ==> ops[i].Line?)
            && (forall i :: 1 + lines <= i < |ops| ==> !ops[i].Line? && !ops[i].FillRect?)
            && (forall i :: 0 <= i < |g.edges| && Drawable(g.edges[i], pos) ==>
                  EdgeLine(g.edges[i], pos, width, height, theme, trig) in ops[1..1 + lines])
  {
    [FillRect(BackgroundColour(theme), 0.0, 0.0, width, height)]
    + EdgeOps(g.edges, pos, width, height, theme, trig)
    + NodeOps(g.nodes, pos, width, height, theme, trig)
  }

  /** Layout followed by the draw pass, for a graph with at least one node. */
  function Frame(g: GraphData, width: real, height: real, theme: Theme, trig: Trig): seq<DrawOp>
    requires |g.nodes| > 0
  {
    Render(g, Layout(g, width, height), width, height, theme, trig)
  }

  // ------------------------------------------------------------ view state

  /** What the component shows. */
  datatype View = Spinner | Placeholder | Canvas

  /** Loading wins over an empty graph, and an empty graph over the canvas. */
  function ChooseView(isLoading: bool, nodeCount: nat): (v: View)
    ensures v == Spinner <==> isLoading
    ensures v == Placeholder <==> !isLoading && nodeCount == 0
    ensures v == Canvas <==> !isLoading && nodeCount > 0
  {
    if isLoading then Spinner
    else if nodeCount == 0 then Placeholder
    else Canvas
  }

  /** The drawing effect after a commit. It runs only when `data` changed
      (`None` otherwise); it returns early, drawing nothing, unless the canvas
      is mounted and the graph has nodes. */
  function Effect(dataChanged: bool, g: GraphData, isLoading: bool, width: real, height: real,
                  theme: Theme, trig: Trig): (r: Option<seq<DrawOp>>)
    ensures r.None? <==> !dataChanged
    ensures r.Some? ==> (r.value != [] <==> ChooseView(isLoading, |g.nodes|) == Canvas)
  {
    if !dataChanged then None
    else
      var mounted := ChooseView(isLoading, |g.nodes|) == Canvas;
      if !mounted || |g.nodes| == 0 then Some([])
      else Some(Frame(g, width, height, theme, trig))
  }
}

=== FILE: render_properties.dfy ===
/** What the draw pass guarantees (graph-visualization.tsx, lines 112-165):
    edge lines and node glyphs compose piecewise, a dangling edge draws
    nothing, every node of a laid-out graph is drawn, and the centre's glyph
    sits on the surface centre. */
module RenderProperties {
  import opened Seqs
  import opened GraphTypes
  import opened RadialLayout
  import opened LayoutProperties
  import opened Renderer

  /** Edge lines of a concatenation are the concatenation of the lines. */
  lemma {:induction false} EdgeOpsConcat(a: seq<Edge>, b: seq<Edge>, pos: Positions,
                                         width: real, height: real, theme: Theme, trig: Trig)
    ensures EdgeOps(a + b, pos, width, height, theme, trig)
            == EdgeOps(a, pos, width, height, theme, trig) + EdgeOps(b, pos, width, height, theme, trig)
    decreases |a|
  {
    if a == [] {
      assert a + b == b;
    } else {
      assert (a + b)[1..] == a[1..] + b;
      EdgeOpsConcat(a[1..], b, pos, width, height, theme, trig);
    }
  }

  /** An edge with an unpositioned endpoint contributes no line. */
  lemma DanglingEdgeSkipped(a: seq<Edge>, e: Edge, b: seq<Edge>, pos: Positions,
                            width: real, height: real, theme: Theme, trig: Trig)
    requires e.from !in pos || e.to !in pos
    ensures EdgeOps(a + [e] + b, pos, width, height, theme, trig)
            == EdgeOps(a + b, pos, width, height, theme, trig)
  {
    EdgeOpsConcat(a + [e], b, pos, width, height, theme, trig);
    EdgeOpsConcat(a, [e], pos, width, height, theme, trig);
    EdgeOpsConcat(a, b, pos, width, height, theme, trig);
  }

  /** Node glyphs of a concatenation are the concatenation of the glyphs. */
  lemma {:induction false} NodeOpsConcat(a: seq<Node>, b: seq<Node>, pos: Positions,
                                         width: real, height: real, theme: Theme, trig: Trig)
    ensures NodeOps(a + b, pos, width, height, theme, trig)
            == NodeOps(a, pos, width, height, theme, trig) + NodeOps(b, pos, width, height, theme, trig)
    decreases |a|
  {
    if a == [] {
      assert a + b == b;
    } else {
      assert (a + b)[1..] == a[1..] + b;
      NodeOpsConcat(a[1..], b, pos, width, height, theme, trig);
    }
  }

  /** A positioned node's four glyph operations appear together, at its
      position, in the node pass. */
  lemma NodeGlyphDrawn(nodes: seq<Node>, pos: Positions, width: real, height: real,
                       theme: Theme, trig: Trig, i: nat)
    requires i < |nodes| && nodes[i].id in pos
    ensures Infix(GlyphOps(nodes[i], ToPoint(pos[nodes[i].id], width, height, trig), theme),
                  NodeOps(nodes, pos, width, height, theme, trig))
  {
    var glyph := GlyphOps(nodes[i], ToPoint(pos[nodes[i].id], width, height, trig), theme);
    var pre := NodeOps(nodes[..i], pos, width, height, theme, trig);
    var post := NodeOps(nodes[i + 1..], pos, width, height, theme, trig);
    NodeOpsSplit(nodes, pos, width, height, theme, trig, i);
    assert NodeOps(nodes, pos, width, height, theme, trig) == pre + glyph + post;
  }

  lemma NodeOpsSplit(nodes: seq<Node>, pos: Positions, width: real, height: real,
                     theme: Theme, trig: Trig, i: nat)
    requires i < |nodes| && nodes[i].id in pos
    ensures NodeOps(nodes, pos, width, height, theme, trig)
            == NodeOps(nodes[..i], pos, width, height, theme, trig)
               + GlyphOps(nodes[i], ToPoint(pos[nodes[i].id], width, height, trig), theme)
               + NodeOps(nodes[i + 1..], pos, width, height, theme, trig)
  {
    assert nodes == nodes[..i] + ([nodes[i]] + nodes[i + 1..]);
    NodeOpsConcat(nodes[..i], [nodes[i]] + nodes[i + 1..], pos, width, height, theme, trig);
    NodeOpsConcat([nodes[i]], nodes[i + 1..], pos, width, height, theme, trig);
    NodeOpsSingle(nodes[i], pos, width, height, theme, trig);
  }

  lemma NodeOpsSingle(nd: Node, pos: Positions, width: real, height: real, theme: Theme, trig: Trig)
    requires nd.id in pos
    ensures NodeOps([nd], pos, width, height, theme, trig)
            == GlyphOps(nd, ToPoint(pos[nd.id], width, height, trig), theme)
  {
    assert [nd][1..] == [];
    assert NodeOps([], pos, width, height, theme, trig) == [];
  }

  /** In a laid-out graph every node is drawn, so the frame holds the
      background, one line per drawable edge and four operations per node. */
  lemma FrameDrawsEveryNode(g: GraphData, width: real, height: real, theme: Theme, trig: Trig)
    requires |g.nodes| > 0
    ensures var pos := Layout(g, width, height);
            |Frame(g, width, height, theme, trig)|
            == 1 + |Filter(g.edges, (e: Edge) => Drawable(e, pos))| + 4 * |g.nodes|
  {
    var pos := Layout(g, width, height);
    FilterKeepsAll(g.nodes, (nd: Node) => nd.id in pos);
  }

  /** An edge from the centre to an id that is not a node still gets a line:
      the layout positions every neighbour id, node or not. */
  lemma DanglingNeighbourDrawn(g: GraphData, width: real, height: real, theme: Theme,
                               trig: Trig, i: nat)
    requires |g.nodes| > 0
    requires i < |g.edges| && g.edges[i].from == CentreId(g.nodes)
    ensures var pos := Layout(g, width, height);
            Drawable(g.edges[i], pos)
            && EdgeLine(g.edges[i], pos, width, height, theme, trig)
               in Frame(g, width, height, theme, trig)
  {
    var c := CentreId(g.nodes);
    var e := g.edges[i];
    var nbs := Neighbours(g.edges, c);
    assert AsNeighbour(e, c) in nbs;
    var k :| 0 <= k < |nbs| && nbs[k] == AsNeighbour(e, c);
    assert e.to in NeighbourIds(nbs);
    LayoutDomain(g, width, height);
  }

  /** Every positioned node's glyph appears, at its position, in the frame. */
  lemma RenderDrawsGlyph(g: GraphData, pos: Positions, width: real, height: real,
                         theme: Theme, trig: Trig, i: nat)
    requires i < |g.nodes| && g.nodes[i].id in pos
    ensures Infix(GlyphOps(g.nodes[i], ToPoint(pos[g.nodes[i].id], width, height, trig), theme),
                  Render(g, pos, width, height, theme, trig))
  {
    var glyph := GlyphOps(g.nodes[i], ToPoint(pos[g.nodes[i].id], width, height, trig), theme);
    var nodeOps := NodeOps(g.nodes, pos, width, height, theme, trig);
    NodeGlyphDrawn(g.nodes, pos, width, height, theme, trig, i);
    var head := [FillRect(BackgroundColour(theme), 0.0, 0.0, width, height)]
                + EdgeOps(g.edges, pos, width, height, theme, trig);
    InfixAfter(glyph, head, nodeOps);
  }

  /** Unless a self-loop moves it, the centre node's glyph is drawn on the
      surface centre. */
  lemma CentreGlyphAtMiddle(g: GraphData, width: real, height: real, theme: Theme, trig: Trig)
    requires |g.nodes| > 0
    requires !exists e :: e in g.edges && e.from == CentreId(g.nodes) && e.to == CentreId(g.nodes)
    ensures Infix(GlyphOps(g.nodes[CentreIndex(g.nodes)], Point(width / 2.0, height / 2.0), theme),
                  Frame(g, width, height, theme, trig))
  {
    var pos := Layout(g, width, height);
    LayoutCentre(g, width, height);
    RenderDrawsGlyph(g, pos, width, height, theme, trig, CentreIndex(g.nodes));
  }

  /** With no query node the first node becomes the centre, and it is drawn
      with the small radius 6 on the surface centre. */
  lemma FallbackCentreSmall(g: GraphData, width: real, height: real, theme: Theme, trig: Trig)
    requires |g.nodes| > 0
    requires forall j :: 0 <= j < |g.nodes| ==> g.nodes[j].group != QueryGroup
    requires !exists e :: e in g.edges && e.from == g.nodes[0].id && e.to == g.nodes[0].id
    ensures Disc(Point(width / 2.0, height / 2.0), 6.0, FillColour(g.nodes[0]))
            in Frame(g, width, height, theme, trig)
  {
    var glyph := GlyphOps(g.nodes[0], Point(width / 2.0, height / 2.0), theme);
    CentreGlyphAtMiddle(g, width, height, theme, trig);
    var pre, post :| Frame(g, width, height, theme, trig) == pre + glyph + post;
    assert glyph[1] == Disc(Point(width / 2.0, height / 2.0), 6.0, FillColour(g.nodes[0]));
    assert (pre + glyph + post)[|pre| + 1] == glyph[1];
  }
}

=== FILE: seqs.dfy ===
/** Sequence helpers shared by the frontend layout and the backend ranking:
    an order-preserving filter, reversal and distinctness. */
module Seqs {

  /** The elements of `s` that satisfy `p`, in their original order
      (JavaScript's `Array.prototype.filter`, a Python list comprehension with
      an `if`). */
  function Filter<T>(s: seq<T>, p: T -> bool): (r: seq<T>)
    ensures |r| <= |s|
  {
    if s == [] then [] else (if p(s[0]) then [s[0]] else []) + Filter(s[1..], p)
  }

  /** The filter keeps exactly the elements that pass: everything it returns
      comes from `s` and passes, and everything of `s` that passes is kept. */
  lemma {:induction false} FilterMembers<T>(s: seq<T>, p: T -> bool)
    ensures forall i :: 0 <= i < |Filter(s, p)| ==> Filter(s, p)[i] in s && p(Filter(s, p)[i])
    ensures forall i :: 0 <= i < |s| && p(s[i]) ==> s[i] in Filter(s, p)
    decreases |s|
  {
    if s != [] {
      FilterMembers(s[1..], p);
      var r, rest := Filter(s, p), Filter(s[1..], p);
      var head := if p(s[0]) then [s[0]] else [];
      assert r == head + rest;
      forall i | 0 <= i < |r| ensures r[i] in s && p(r[i]) {
        if i >= |head| {
          assert r[i] == rest[i - |head|];
          assert rest[i - |head|] in s[1..];
        }
      }
      forall i | 0 <= i < |s| && p(s[i]) ensures s[i] in r {
        if i > 0 {
          assert s[i] == s[1..][i - 1];
        }
      }
    }
  }

  /** Filtering an element put in front. */
  lemma FilterCons<T>(x: T, s: seq<T>, p: T -> bool)
    ensures Filter([x] + s, p) == (if p(x) then [x] else []) + Filter(s, p)
  {
    assert ([x] + s)[1..] == s;
  }

  /** A filter every element passes changes nothing. */
  lemma {:induction false} FilterKeepsAll<T>(s: seq<T>, p: T -> bool)
    requires forall i :: 0 <= i < |s| ==> p(s[i])
    ensures Filter(s, p) == s
    decreases |s|
  {
    if s != [] {
      FilterKeepsAll(s[1..], p);
    }
  }

  /** No two positions of `s` hold the same value. */
  predicate Distinct<T(==)>(s: seq<T>) {
    forall i, j :: 0 <= i < j < |s| ==> s[i] != s[j]
  }

  /** A filter of a duplicate-free sequence is duplicate-free. */
  lemma {:induction false} FilterDistinct<T>(s: seq<T>, p: T -> bool)
    requires Distinct(s)
    ensures Distinct(Filter(s, p))
    decreases |s|
  {
    if s != [] {
      FilterDistinct(s[1..], p);
      FilterMembers(s[1..], p);
      var rest := Filter(s[1..], p);
      assert s[0] !in s[1..] by {
        forall i | 0 <= i < |s[1..]| ensures s[1..][i] != s[0] {
          assert s[1..][i] == s[i + 1];
        }
      }
      assert s[0] !in rest;
    }
  }

  /** `s` without the occurrences of `x`. */
  function Without<T(==)>(s: seq<T>, x: T): seq<T> {
    Filter(s, NotEqual(x))
  }

  /** The test `y != x`, as a value, so that every use names the same
      function. */
  function NotEqual<T(==)>(x: T): T -> bool {
    (y: T) => y != x
  }

  /** Dropping one value from a duplicate-free sequence removes exactly one
      element when the value occurs, and none otherwise. */
  lemma {:induction false} WithoutCount<T>(s: seq<T>, x: T)
    requires Distinct(s)
    ensures |Without(s, x)| == if x in s then |s| - 1 else |s|
    decreases |s|
  {
    if s != [] {
      assert Distinct(s[1..]) by {
        forall i, j | 0 <= i < j < |s[1..]| ensures s[1..][i] != s[1..][j] {
          assert s[1..][i] == s[i + 1] && s[1..][j] == s[j + 1];
        }
      }
      WithoutCount(s[1..], x);
      if s[0] == x {
        assert x !in s[1..] by {
          forall i | 0 <= i < |s[1..]| ensures s[1..][i] != x {
            assert s[1..][i] == s[i + 1];
          }
        }
      } else {
        assert x in s <==> x in s[1..] by {
          assert s == [s[0]] + s[1..];
        }
      }
    }
  }

  /** Filters by predicates that agree on the elements give the same result. */
  lemma {:induction false} FilterCongruent<T>(s: seq<T>, p: T -> bool, q: T -> bool)
    requires forall i :: 0 <= i < |s| ==> p(s[i]) == q(s[i])
    ensures Filter(s, p) == Filter(s, q)
    decreases |s|
  {
    if s != [] {
      FilterCongruent(s[1..], p, q);
    }
  }

  /** `block` occurs contiguously inside `s`. */
  ghost predicate Infix<T(!new)>(block: seq<T>, s: seq<T>) {
    exists pre, post :: s == pre + block + post
  }

  /** An infix of `s` is an infix of anything `s` is a suffix of. */
  lemma InfixAfter<T(!new)>(block: seq<T>, p: seq<T>, s: seq<T>)
    requires Infix(block, s)
    ensures Infix(block, p + s)
  {
    var pre, post :| s == pre + block + post;
    assert p + s == (p + pre) + block + post;
  }

  /** The integers `0 .. n - 1`. */
  function Below(n: nat): (r: set<int>)
    ensures |r| == n
    ensures forall v :: v in r <==> 0 <= v < n
  {
    if n == 0 then {} else Below(n - 1) + {n - 1}
  }

  /** A duplicate-free sequence of `n` indices below `n` holds every index. */
  lemma PermutationCovers(s: seq<int>, n: nat)
    requires |s| == n && Distinct(s)
    requires forall i :: 0 <= i < |s| ==> 0 <= s[i] < n
    ensures forall v :: 0 <= v < n ==> v in s
  {
    var elems := set i | 0 <= i < |s| :: s[i];
    var all := Below(n);
    DistinctCard(s);
    assert elems <= all;
    forall v | 0 <= v < n ensures v in s {
      if v !in elems {
        assert elems <= all - {v};
        SubsetCard(elems, all - {v});
        assert false;
      }
    }
  }

  lemma {:induction false} DistinctCard(s: seq<int>)
    requires Distinct(s)
    ensures |set i | 0 <= i < |s| :: s[i]| == |s|
    decreases |s|
  {
    if s != [] {
      var init := s[..|s| - 1];
      assert Distinct(init);
      DistinctCard(init);
      var a := set i | 0 <= i < |init| :: init[i];
      var b := set i | 0 <= i < |s| :: s[i];
      assert b == a + {s[|s| - 1]};
      assert s[|s| - 1] !in a;
    }
  }

  lemma SubsetCard(a: set<int>, b: set<int>)
    requires a <= b
    ensures |a| <= |b|
  {
    assert b == a + (b - a);
  }

  /** `s` read back to front (Python's `[::-1]`). */
  function Reverse<T>(s: seq<T>): (r: seq<T>)
    ensures |r| == |s|
    ensures forall i :: 0 <= i < |s| ==> r[i] == s[|s| - 1 - i]
  {
    if s == [] then [] else Reverse(s[1..]) + [s[0]]
  }
}

=== FILE: wrappers.dfy ===
/** Failure-compatible wrappers shared by the model: an optional value and a
    success-or-error result. */
module Wrappers {

  datatype Option<+T> = None | Some(value: T)

  datatype Result<+R, +E> = Success(value: R) | Failure(error: E)
}
